=== FILE: README.md ===
# bpgtracker: a verified model of the Timeseries container and BPGEntry

bpgtracker records daily blood-pressure and glucose readings. This project models,
in Dafny, its two components that carry logic:

- `BPGEntry` (bpgtracker/bpgentry.py): one day's record. The constructor checks the
  date, which may be a `"%Y/%m/%d"` string or a datetime. It then normalises each
  of the three channels (systolic, diastolic, glucose). A falsy input (None, `""`,
  `0`) means "no reading", and anything else goes through `int()`. `__str__`
  renders `YYYY/MM/DD: s/d g`, with `-` for an absent channel.
- `Timeseries` (bpgtracker/timeseries.py): an OrderedDict from `"%Y/%m/%d"` keys to
  entries.
  - `bulk_load` takes a dict, or a list or tuple of entries. For a list, the last
    entry for a date wins. It then rebuilds the series in sorted key order and
    fills every missing day with an entry that has no readings.
  - `set` upserts one entry. A new key re-sorts the keys; no day is filled.
  - `get`, `keys` and `values` read the series.

Both depend on the calendar arithmetic of Python's `datetime`. The model includes:

- Dates from year 1 to 9999 with leap years.
- The one-day step, which overflows after 9999/12/31.
- `strftime` and `strptime` for `"%Y/%m/%d"`.
- Python's `str` ordering and `sorted()`.
- `str()` of an integer and `int()` of a string.

Modules, one per file:

| file | module | models |
|---|---|---|
| wrappers.dfy | Wrappers | `Option`, `Result` |
| lexical.dfy | Lexical | `<` on `str`, `sorted()` |
| numerals.dfy | Numerals | zero-padded fields, `str(int)`, `int(str)` |
| dates.dfy | Dates | `datetime` dates, `+ timedelta(days=1)`, `strftime`/`strptime` with `"%Y/%m/%d"` |
| readings.dfy | Readings | `BPGEntry.__init__` and `__str__` |
| series.dfy | Series | the `Timeseries` class |

The Timeseries is a Dafny class with two fields:

- `keys` is the OrderedDict's key order.
- `table` is its contents.

`bulk_load` is split into methods that follow the code's own structure:

- `Collect` builds the dict `tsd`.
- `Rebuild` runs the `for` loop over the sorted keys.
- `LoadKey` runs one turn of that loop.
- `FillGap` runs the inner `while` loop.

The loops of `Rebuild` and `FillGap` (with `LoadKey` as one turn of the outer
loop) are proved against the ghost predicates `Filled` and `Filling`, which
`FilledIsDense` turns into the ghost predicate `DenseLoad`; the list loop of
`Collect` is proved against `Merge`. `DenseLoad` says:

- the keys run day by day from the least to the greatest key of `tsd`;
- every entry of `tsd` is kept;
- every other day holds an entry without readings.

Exceptions are modelled as returned values: `Error` in Series and `EntryError` in
Readings.

The model follows the code as written:

- `bulk_load` empties the series before it looks at the keys. An empty input
  therefore raises IndexError and leaves an EMPTY series (bpgtracker/timeseries.py:61-63),
  not the prior contents. The same holds for a dict key that `strptime` rejects,
  which leaves the keys loaded so far in place.
- `set` never fills missing days, so a series stops being gapless after `set` of
  a date more than one day outside its range (bpgtracker/timeseries.py:87-92), although the class
  docstring (bpgtracker/timeseries.py:21-26) says missing dates are filled in.

## Model

| member | source | states |
|---|---|---|
| Lexical.Irreflexive | bpgtracker/timeseries.py:62 | no string sorts before itself |
| Lexical.Asymmetric | bpgtracker/timeseries.py:62 | `a < b` and `b < a` never both hold |
| Lexical.Transitive | bpgtracker/timeseries.py:62 | `a < b < c` gives `a < c` |
| Lexical.Trichotomy | bpgtracker/timeseries.py:62 | any two strings are equal or ordered one way |
| Lexical.Less | bpgtracker/timeseries.py:62 | `a < b` on `str`, code point by code point: a proper prefix sorts first and nothing sorts before its own prefix; with Irreflexive, Asymmetric, Transitive and Trichotomy it is a strict total order |
| Lexical.LessConcat | bpgtracker/timeseries.py:59-62 | for prefixes of equal length, the prefixes decide the comparison and the rests decide only when the prefixes are equal |
| Lexical.LeastExists | bpgtracker/timeseries.py:62 | a non-empty set of keys has a least key |
| Lexical.AscendingDistinct | bpgtracker/timeseries.py:90-91 | a strictly ascending key list has no repeated key |
| Lexical.Sorted | bpgtracker/timeseries.py:62 | `sorted(keys)` has exactly the given keys, one each, in strictly ascending order |
| Numerals.Padded | bpgtracker/timeseries.py:54 | a zero-padded field has exactly `width` decimal digits |
| Numerals.PaddedDigit | bpgtracker/timeseries.py:54 | character `j` of a padded field is the matching decimal digit of the number |
| Numerals.PaddedValue | bpgtracker/bpgentry.py:24 | reading a padded field back gives the number when it fits the width |
| Numerals.ValuePadded | bpgtracker/bpgentry.py:24 | a string of digits is the padded form of its own value |
| Numerals.PaddedOrder | bpgtracker/timeseries.py:59-62 | padded fields of one width compare as text exactly as the numbers compare |
| Numerals.NatTextValue | bpgtracker/bpgentry.py:56 | the digits `str(n)` writes denote `n` |
| Numerals.IntTextRoundTrip | bpgtracker/bpgentry.py:34 | `int(str(i)) == i` for every integer |
| Numerals.NatText | bpgtracker/bpgentry.py:56 | `str(n)` of a non-negative integer is a non-empty run of decimal digits with no leading zero, and "0" for zero; NatTextValue gives its value |
| Numerals.IntText | bpgtracker/bpgentry.py:56 | `str(i)` starts with '-' exactly when `i` is negative, and the rest is a non-empty run of decimal digits (NatText of the magnitude, so without leading zeros) |
| Numerals.ParseInt | bpgtracker/bpgentry.py:34-42 | `int(s)` (lines 34, 38 and 42) of blank text raises ValueError, and a negative result comes only from a leading '-' once whitespace is stripped; with ParseUnsigned, ParseNegative and IntTextRoundTrip, digits read as their value |
| Numerals.ParseTrimmed | bpgtracker/bpgentry.py:34 | `int()` of stripped text: empty text raises, and a negative result needs a leading '-' |
| Numerals.ParseTrimmedChars | bpgtracker/bpgentry.py:33-34 | stripped text that `int()` accepts is an optional leading sign followed by digits and underscores only |
| Numerals.ParseIntChars | bpgtracker/bpgentry.py:33-42 | text that `int()` accepts holds nothing but whitespace, digits, signs and underscores: a letter or any other character raises ValueError |
| Numerals.ParseUnsigned | bpgtracker/bpgentry.py:34 | `int(digits)` is the digits' value |
| Numerals.ParseNegative | bpgtracker/bpgentry.py:34 | `int("-" + digits)` is minus the digits' value |
| Dates.NextDay | bpgtracker/timeseries.py:70-71 | the next day is later, and it is a valid date unless the day is 9999/12/31 |
| Dates.NextDayImmediate | bpgtracker/timeseries.py:70-71 | no valid date lies strictly between a day and the next day |
| Dates.Format | bpgtracker/timeseries.py:54 | `strftime(d, "%Y/%m/%d")` is ten characters long |
| Dates.FormatIs | bpgtracker/timeseries.py:54 | the formatted date is the zero-padded year, month and day joined by '/' |
| Dates.FormatIsStrftime | bpgtracker/bpgentry.py:50 | the formatted date equals the directive-by-directive rendering of `"%Y/%m/%d"` |
| Dates.ParseDate | bpgtracker/bpgentry.py:24 | every date `strptime` accepts is a valid calendar date |
| Dates.ParseFormat | bpgtracker/timeseries.py:69-72 | `strptime(strftime(d))` gives `d` back for every valid date |
| Dates.FormatParse | bpgtracker/bpgentry.py:23-24 | formatting a parsed date gives the text back exactly when the text is ten characters with no space before the day |
| Dates.FormatOrder | bpgtracker/timeseries.py:59-62 | text order of formatted dates is chronological order, both ways |
| Dates.FormatInjective | bpgtracker/timeseries.py:54-55 | two dates share a key exactly when they are the same date |
| Readings.Blank | bpgtracker/timeseries.py:76 | a blank entry has the given date and all three channels absent |
| Readings.Normalize | bpgtracker/bpgentry.py:30-42 | a channel is absent exactly when its input is falsy; a non-zero int is kept; a non-empty string is `int()` of it, or the error `int()` raises |
| Readings.CheckDate | bpgtracker/bpgentry.py:21-29 | a falsy date is rejected as missing, a truthy object that is neither a string nor a datetime as not date-like, a string is `strptime` of it or an error, and a datetime is kept |
| Readings.NewEntry | bpgtracker/bpgentry.py:18-45 | the date is checked first and the channels in order, so the first failure is the error raised; on success each channel is absent exactly when its input was falsy |
| Readings.ChannelsIndependent | bpgtracker/bpgentry.py:30-42 | each channel depends on its own input only |
| Readings.ZeroTextIsReading | bpgtracker/bpgentry.py:31-34 | the text "0" is a present reading of 0, the integer 0 is no reading |
| Readings.DateOnlyIsBlank | bpgtracker/timeseries.py:76 | `BPGEntry(key)` for a parseable key is that day with no readings |
| Readings.ChannelText | bpgtracker/bpgentry.py:52-56 | a slot is non-empty and holds neither '/' nor ' ' |
| Readings.EntryText | bpgtracker/bpgentry.py:47-57 | the text is the formatted date, then ": ", then the three slots |
| Readings.Render | bpgtracker/bpgentry.py:47-57 | the `mstrs` loop of `__str__` builds exactly `EntryText` |
| Readings.ChannelTextReadsBack | bpgtracker/bpgentry.py:52-56 | a slot read back through `int()` gives the reading; "-" is rejected |
| Readings.SlotsTextInjective | bpgtracker/bpgentry.py:57 | the three slots determine the three readings |
| Readings.EntryTextInjective | bpgtracker/bpgentry.py:47-57 | different entries print differently |
| Series.KeyOf | bpgtracker/timeseries.py:54 | an entry's key is ten characters long |
| Series.Merge | bpgtracker/timeseries.py:50-55 | the dict built from a list has every entry's key, and each key names its entry's date |
| Series.MergeKeysFromEntries | bpgtracker/timeseries.py:50-55 | conversely, every key of the dict built from a list is the key of some entry of the list |
| Series.EntriesOf | bpgtracker/timeseries.py:51-53 | the entries of a list of items are those items, in order |
| Series.KeyDate | bpgtracker/timeseries.py:69-70 | a canonical key names a valid date that formats back to it |
| Series.KeyDateParses | bpgtracker/timeseries.py:69-70 | `strptime` of a canonical key gives the date it names |
| Series.KeyDateOfFormat | bpgtracker/timeseries.py:69-72 | the key of a formatted date names that date |
| Series.RankDecreases | bpgtracker/timeseries.py:68-75 | each day the inner loop advances brings it closer to 9999/12/31 |
| Series.CollectedNonEmpty | bpgtracker/timeseries.py:33-34 | a truthy list or dict gives a non-empty `tsd` |
| Series.KeyOfCanonical | bpgtracker/timeseries.py:54 | an entry's key parses back to the entry's date |
| Series.MergeLastWins | bpgtracker/timeseries.py:50-55 | for each date, the dict keeps the entry that came last in the list |
| Series.MergeKeyedByDate | bpgtracker/timeseries.py:50-55 | the dict built from a list has canonical keys, each naming its entry's date |
| Series.KeyedIsCanonical | bpgtracker/timeseries.py:43-44 | a dict keyed by its entries' dates has canonical keys |
| Series.ChainBefore | bpgtracker/timeseries.py:66-76 | along a run of consecutive days, dates strictly increase |
| Series.ChainAscending | bpgtracker/timeseries.py:66-76 | a run of consecutive days is in strictly ascending key order |
| Series.ChainCovers | bpgtracker/timeseries.py:66-76 | a run of consecutive days holds every date from its first to its last key |
| Series.ChainUnique | bpgtracker/timeseries.py:66-76 | two runs with the same first and last key are equal |
| Series.DenseLoadSpan | bpgtracker/timeseries.py:61-76 | a loaded series is strictly ascending, runs from the least to the greatest key of `tsd`, and holds every day in between |
| Series.DenseLoadUnique | bpgtracker/timeseries.py:61-76 | what a load leaves behind is determined by `tsd` |
| Series.ListLoadLastWins | bpgtracker/timeseries.py:50-65 | after loading a list, each date holds the last entry given for it |
| Series.ListLoadSpan | bpgtracker/timeseries.py:50-65 | after loading a list, the first and last keys are dates of input entries, and every input date lies between them: the series runs from the earliest to the latest input date |
| Series.ValuesOf | bpgtracker/timeseries.py:104-107 | `values()` lists, for each key in order, the entry stored under it |
| Series.ValuesMatchKeys | bpgtracker/timeseries.py:104-107 | in a series keyed by date, each listed value formats to the key listed with it |
| Series.MergeSnoc | bpgtracker/timeseries.py:54-55 | one more entry in the list overwrites or adds its own key only |
| Series.MergeValues | bpgtracker/timeseries.py:50-55 | merging the values of a keyed-by-date table, in any key order, rebuilds that part of the table |
| Series.ReloadIsIdentity | bpgtracker/timeseries.py:104-107 | loading the values of a loaded series gives the same dict, and the series is a dense load of it |
| Series.DenseKeyedByDate | bpgtracker/timeseries.py:61-76 | loading a dict keyed by date leaves a table keyed by date, the filled days included |
| Series.Ordered | bpgtracker/timeseries.py:62-64 | sorted canonical keys are in date order |
| Series.StoredNext | bpgtracker/timeseries.py:65 | storing the next sorted key's entry over a blank one keeps the table in shape |
| Series.StoredBlank | bpgtracker/timeseries.py:76 | storing a blank entry for a new day keeps the table in shape |
| Series.Start | bpgtracker/timeseries.py:64-67 | storing the current sorted key starts the inner loop, whether or not a blank entry held its place |
| Series.StepTarget | bpgtracker/timeseries.py:68-72 | inside the gap, the next day exists and is not yet in the series |
| Series.ChainAfter | bpgtracker/timeseries.py:69-76 | the day after the last day of a run is not in the run |
| Series.StepPlace | bpgtracker/timeseries.py:69-74 | the next day is at most the next sorted key, and `moredays` turns false exactly on reaching it |
| Series.Step | bpgtracker/timeseries.py:68-76 | one turn of the inner loop keeps the loop invariant |
| Series.RunExtend | bpgtracker/timeseries.py:75-76 | appending the next day keeps the keys a run of consecutive days |
| Series.Finish | bpgtracker/timeseries.py:68 | leaving the inner loop, the series ends at the next sorted key, or at the last one |
| Series.FilledIsDense | bpgtracker/timeseries.py:64-76 | after the last sorted key the series is a dense load of `tsd` |
| Series.MergeStep | bpgtracker/timeseries.py:51-55 | one turn of the list loop adds one entry under its key |
| Series.Collect | bpgtracker/timeseries.py:43-58 | a dict is taken as it is; a list gives the merged dict, or the error for a non-entry; any other object is rejected |
| Series.Timeseries.constructor | bpgtracker/timeseries.py:28 | a new series is empty |
| Series.Timeseries.Create | bpgtracker/timeseries.py:30-34 | a falsy argument gives an empty series; a truthy one gives a dense load of its dict, or the error `bulk_load` raises; a truthy list holding a non-entry gives the ValueError of line 53; for a truthy list of entries or a truthy dict, the only possible errors are a bad key or date overflow, and only from a dict with a key that is not the `"%Y/%m/%d"` text of a date |
| Series.Timeseries.Put | bpgtracker/timeseries.py:65 | OrderedDict assignment: a new key goes last, an existing key keeps its place |
| Series.Timeseries.FillGap | bpgtracker/timeseries.py:66-76 | the inner loop fills the days up to the next sorted key; it may raise only for a bad key or on overflow |
| Series.Timeseries.LoadKey | bpgtracker/timeseries.py:64-76 | one turn of the outer loop stores a sorted key and fills the gap after it |
| Series.Timeseries.Rebuild | bpgtracker/timeseries.py:61-76 | an empty `tsd` raises and leaves the series empty; canonical keys give a dense load of `tsd`; a bad key or overflow only comes from a non-canonical key |
| Series.Timeseries.BulkLoad | bpgtracker/timeseries.py:36-76 | the error cases in order, no change before the dict is built, then a dense load of the collected dict, keyed by date when the input was |
| Series.Timeseries.Set | bpgtracker/timeseries.py:78-92 | a non-entry is rejected; an existing key is replaced in place; a new key is added and the keys re-sorted; other entries are untouched, and a sorted series stays sorted |
| Series.Timeseries.Resort | bpgtracker/timeseries.py:89-92 | copying in sorted key order keeps the contents and sorts the keys |
| Series.Timeseries.Get | bpgtracker/timeseries.py:94-97 | a stored key gives its entry; a missing key raises KeyError |
| Series.Timeseries.Keys | bpgtracker/timeseries.py:99-102 | the listed keys are exactly the stored keys, each once |
| Series.Timeseries.Values | bpgtracker/timeseries.py:104-107 | one value per key, in key order, each the entry stored under that key |

## Left out

- Plotting (`create_plot`, `_plot_errors`, `display_plot`): matplotlib output and numpy floating-point regression.
- The string branch of `bulk_load`, which reads a CSV file through `CSVHandler`: file I/O. bpgtracker/csvhandler.py, subject.py, person.py, cli.py and `__init__.py` are not part of this model.
- `bulk_get`, which hands out the internal OrderedDict itself: aliasing of the internal dict is not modelled.
- The class attribute `_timeseries = OrderedDict()`, shared by every instance until it assigns its own. Each instance is modelled with its own, initially empty, dict. The model therefore does not capture that `set` on a fresh instance writes into the shared dict first.
- The NaN sentinel and the `is np.nan` test: an absent reading is `None` in `Option<int>`.
- `int()` of floats, bools and other objects: a reading is modelled as None, a string or an int. `int()` of a string is modelled for ASCII digits and whitespace only, not Unicode digits.
- The time of day of a datetime: a date is year, month and day.
- `strftime` writing years below 1000 without padding (glibc): the model always writes four digits.
- Values of a dict handed to `bulk_load` are assumed to be BPGEntry objects with real dates; the source does not check them.
- Series.Timeseries.BulkLoad: for a dict with a key that is not a date in `"%Y/%m/%d"` form, the contract states only the error kinds and the OrderedDict invariant, not the resulting contents.
- Series.Timeseries.FillGap: for non-canonical keys, the same weaker contract as BulkLoad.
- Series.Timeseries.Rebuild: for non-canonical keys, the same weaker contract as BulkLoad.
- Series.Timeseries.LoadKey: for non-canonical keys, the same weaker contract as BulkLoad.
- Series.Timeseries.Create: for a truthy dict with a key that is not a date in `"%Y/%m/%d"` form, the contract states only the error kinds, not the resulting contents, as for BulkLoad.
- Dates.ParseDate: reads ASCII digits only. `strptime` matches `%Y`, `%m` and `%d` with `\d`, which in Python also accepts other Unicode decimal digits (such as full-width ones); such dates are rejected by the model.
- Dict keys that are not strings: `Source.Mapping` has `string` keys. Python accepts a one-key dict with any key, because the gap-filling loop never parses the only key, and raises TypeError (in `sorted` or `strptime`) once there are more keys; the model does not represent non-string keys.

=== FILE: dates.dfy ===
/**
 * Calendar dates as `datetime` holds them, the one-day step `+ timedelta(days=1)`,
 * and the "%Y/%m/%d" text form written by `strftime` and read by `strptime`.
 */
module Dates {
  import opened Wrappers
  import opened Numerals
  import Lexical

  datatype Date = Date(year: int, month: int, day: int)

  /** The last day `datetime` can represent; one day more overflows. */
  const MaxDate := Date(9999, 12, 31)

  predicate IsLeapYear(y: int)
  {
    y % 4 == 0 && (y % 100 != 0 || y % 400 == 0)
  }

  function DaysInMonth(y: int, m: int): (n: int)
    ensures 28 <= n <= 31
  {
    if m == 2 then (if IsLeapYear(y) then 29 else 28)
    else if m == 4 || m == 6 || m == 9 || m == 11 then 30
    else 31
  }

  /** The dates `datetime` accepts: years 1 to 9999 and real month days. */
  predicate ValidDate(d: Date)
  {
    1 <= d.year <= 9999 && 1 <= d.month <= 12 && 1 <= d.day <= DaysInMonth(d.year, d.month)
  }

  /** Chronological order. */
  predicate Before(a: Date, b: Date)
  {
    a.year < b.year
    || (a.year == b.year && (a.month < b.month || (a.month == b.month && a.day < b.day)))
  }

  /** The day after `d`. */
  function NextDay(d: Date): (r: Date)
    ensures Before(d, r)
    ensures ValidDate(d) && d != MaxDate ==> ValidDate(r)
  {
    if d.day < DaysInMonth(d.year, d.month) then Date(d.year, d.month, d.day + 1)
    else if d.month < 12 then Date(d.year, d.month + 1, 1)
    else Date(d.year + 1, 1, 1)
  }

  /** The day after `d` is the very next date: no valid date lies in between. */
  lemma NextDayImmediate(d: Date, e: Date)
    requires ValidDate(d) && ValidDate(e) && Before(d, e)
    ensures e == NextDay(d) || Before(NextDay(d), e)
  {
  }

  /** The text `strftime` writes for the directive `%c`. */
  function Field(c: char, d: Date): (s: string)
    requires ValidDate(d)
  {
    if c == 'Y' then Padded(d.year, 4) else if c == 'm' then Padded(d.month, 2) else Padded(d.day, 2)
  }

  /** `strftime(d, fmt)` for the directives `%Y`, `%m` and `%d`; other characters are copied. */
  function Strftime(fmt: string, d: Date): (s: string)
    requires ValidDate(d)
  {
    if fmt == [] then ""
    else if fmt[0] == '%' && |fmt| >= 2 && fmt[1] in "Ymd" then Field(fmt[1], d) + Strftime(fmt[2..], d)
    else [fmt[0]] + Strftime(fmt[1..], d)
  }

  const DateFormat := "%Y/%m/%d"

  /**
   * Character `i` of `strftime(d, "%Y/%m/%d")`: the four digits of the year,
   * '/', the two digits of the month, '/', the two digits of the day.
   */
  function FormatChar(d: Date, i: nat): (c: char)
    requires ValidDate(d) && i < 10
  {
    if i == 4 || i == 7 then '/'
    else if i < 4 then DigitChar(Digit(d.year, 3 - i))
    else if i < 7 then DigitChar(Digit(d.month, 6 - i))
    else DigitChar(Digit(d.day, 9 - i))
  }

  /** The first `n` characters of the formatted date. */
  function FormatPrefix(d: Date, n: nat): (s: string)
    requires ValidDate(d) && n <= 10
    ensures |s| == n
    decreases n, d.year
  {
    if n == 0 then "" else FormatPrefix(d, n - 1) + [FormatChar(d, n - 1)]
  }

  /** `strftime(d, "%Y/%m/%d")`. */
  function Format(d: Date): (s: string)
    requires ValidDate(d)
    ensures |s| == 10
  {
    FormatPrefix(d, 10)
  }

  lemma {:induction false} FormatPrefixChar(d: Date, n: nat, i: nat)
    requires ValidDate(d) && i < n <= 10
    ensures FormatPrefix(d, n)[i] == FormatChar(d, i)
    decreases n
  {
    if i < n - 1 {
      FormatPrefixChar(d, n - 1, i);
    }
  }

  /** The formatted date is the three zero-padded fields joined by '/'. */
  lemma FormatIs(d: Date)
    requires ValidDate(d)
    ensures Format(d) == Padded(d.year, 4) + "/" + Padded(d.month, 2) + "/" + Padded(d.day, 2)
  {
    var y, m, dd := Padded(d.year, 4), Padded(d.month, 2), Padded(d.day, 2);
    var s := y + "/" + m + "/" + dd;
    forall i | 0 <= i < 10
      ensures Format(d)[i] == s[i]
    {
      FormatPrefixChar(d, 10, i);
      if i < 4 {
        PaddedDigit(d.year, 4, i);
      } else if 4 < i < 7 {
        PaddedDigit(d.month, 2, i - 5);
      } else if 7 < i {
        PaddedDigit(d.day, 2, i - 8);
      }
    }
  }

  lemma StrftimeTail(d: Date)
    requires ValidDate(d)
    ensures Strftime("/%m/%d", d) == "/" + Padded(d.month, 2) + "/" + Padded(d.day, 2)
  {
    assert "/%m/%d"[1..] == "%m/%d";
    assert "%m/%d"[2..] == "/%d";
    assert "/%d"[1..] == "%d";
    assert "%d"[2..] == "";
    var m, dd := Padded(d.month, 2), Padded(d.day, 2);
    assert Strftime("%d", d) == dd + "";
    assert Strftime("/%d", d) == "/" + dd;
    assert Strftime("%m/%d", d) == m + "/" + dd;
  }

  /** The character-by-character form agrees with the directive-by-directive one. */
  lemma FormatIsStrftime(d: Date)
    requires ValidDate(d)
    ensures Format(d) == Strftime(DateFormat, d)
  {
    var y, m, dd := Padded(d.year, 4), Padded(d.month, 2), Padded(d.day, 2);
    FormatIs(d);
    StrftimeTail(d);
    assert DateFormat[2..] == "/%m/%d";
    assert Strftime(DateFormat, d) == y + ("/" + m + "/" + dd);
  }

  /** Index of the first '/' in `s`, or `|s|` when there is none. */
  function FindSlash(s: string): (k: nat)
    ensures k <= |s|
    ensures forall i :: 0 <= i < k ==> s[i] != '/'
    ensures k < |s| ==> s[k] == '/'
  {
    if s == [] || s[0] == '/' then 0 else 1 + FindSlash(s[1..])
  }

  /** What `%m` accepts: "1" to "9" or "01" to "12". */
  function MonthField(f: string): (r: Option<int>)
    ensures r.Some? ==> 1 <= r.value <= 12
  {
    if |f| == 1 && '1' <= f[0] <= '9' then Some(DigitValue(f[0]))
    else if |f| == 2 && AllDigits(f) && 1 <= Value(f) <= 12 then Some(Value(f))
    else None
  }

  /** What `%d` accepts: "1" to "9", "01" to "31", or a space and one digit. */
  function DayField(f: string): (r: Option<int>)
    ensures r.Some? ==> 1 <= r.value <= 31
  {
    if |f| == 1 && '1' <= f[0] <= '9' then Some(DigitValue(f[0]))
    else if |f| == 2 && f[0] == ' ' && '1' <= f[1] <= '9' then Some(DigitValue(f[1]))
    else if |f| == 2 && AllDigits(f) && 1 <= Value(f) <= 31 then Some(Value(f))
    else None
  }

  /** A date from parsed fields, if `datetime` accepts it. */
  function Assemble(year: int, month: Option<int>, day: Option<int>): (r: Option<Date>)
    ensures r.Some? ==> ValidDate(r.value)
  {
    if month.Some? && day.Some? && 1 <= year <= 9999 && 1 <= month.value <= 12
       && 1 <= day.value <= DaysInMonth(year, month.value)
    then Some(Date(year, month.value, day.value))
    else None
  }

  /**
   * `strptime(s, "%Y/%m/%d")`: four digits, '/', a month field, '/', a day field and
   * nothing more, naming a date `datetime` accepts; `None` where it raises ValueError.
   */
  function ParseDate(s: string): (r: Option<Date>)
    ensures r.Some? ==> ValidDate(r.value)
  {
    if |s| < 5 || !AllDigits(s[..4]) || s[4] != '/' then None
    else
      var rest := s[5..];
      var k := FindSlash(rest);
      if k == |rest| then None
      else Assemble(Value(s[..4]), MonthField(rest[..k]), DayField(rest[k + 1..]))
  }

  lemma SplitRest(m: string, dd: string)
    requires |m| == 2 && |dd| == 2 && AllDigits(m)
    ensures FindSlash(m + "/" + dd) == 2
    ensures (m + "/" + dd)[..2] == m && (m + "/" + dd)[3..] == dd
  {
    var rest := m + "/" + dd;
    assert rest[0] == m[0] && rest[1] == m[1] && rest[2] == '/';
  }

  /** Text made of zero-padded fields parses field by field. */
  lemma ParseFields(s: string, y: string, m: string, dd: string)
    requires |y| == 4 && |m| == 2 && |dd| == 2 && AllDigits(y) && AllDigits(m)
    requires s == y + "/" + m + "/" + dd
    ensures ParseDate(s) == Assemble(Value(y), MonthField(m), DayField(dd))
  {
    assert s[..4] == y && s[4] == '/' && s[5..] == m + "/" + dd;
    SplitRest(m, dd);
  }

  lemma MonthFieldPadded(n: int)
    requires 1 <= n <= 12
    ensures MonthField(Padded(n, 2)) == Some(n)
  {
    PaddedValue(n, 2);
  }

  lemma DayFieldPadded(n: int)
    requires 1 <= n <= 31
    ensures DayField(Padded(n, 2)) == Some(n)
  {
    PaddedValue(n, 2);
  }

  /** The padded fields of a date read back as that date. */
  lemma PaddedFields(d: Date)
    requires ValidDate(d)
    ensures Assemble(Value(Padded(d.year, 4)), MonthField(Padded(d.month, 2)), DayField(Padded(d.day, 2))) == Some(d)
  {
    PaddedValue(d.year, 4);
    MonthFieldPadded(d.month);
    DayFieldPadded(d.day);
  }

  /** Parsing the formatted form of a date gives the date back. */
  lemma ParseFormat(d: Date)
    requires ValidDate(d)
    ensures ParseDate(Format(d)) == Some(d)
  {
    FormatIs(d);
    ParseFields(Format(d), Padded(d.year, 4), Padded(d.month, 2), Padded(d.day, 2));
    PaddedFields(d);
  }

  /** Ten characters that parse, with no space before the day, are the padded fields of the date. */
  lemma ParsedPadded(s: string, d: Date)
    requires ParseDate(s) == Some(d) && |s| == 10 && s[8] != ' '
    ensures s == Padded(d.year, 4) + "/" + Padded(d.month, 2) + "/" + Padded(d.day, 2)
  {
    var rest := s[5..];
    var k := FindSlash(rest);
    assert k == 2 by {
      assert MonthField(rest[..k]).Some? && DayField(rest[k + 1..]).Some?;
    }
    var yf, mf, df := s[..4], rest[..2], rest[3..];
    assert df[0] == s[8];
    assert AllDigits(mf) && AllDigits(df);
    assert d == Date(Value(yf), Value(mf), Value(df));
    ValuePadded(yf);
    ValuePadded(mf);
    ValuePadded(df);
    assert s == yf + "/" + mf + "/" + df;
  }

  /**
   * Formatting a parsed date gives the text back exactly when the text was written
   * with every field zero-padded: ten characters, no space before the day.
   */
  lemma FormatParse(s: string, d: Date)
    requires ParseDate(s) == Some(d)
    ensures Format(d) == s <==> (|s| == 10 && s[8] != ' ')
  {
    FormatIs(d);
    if |s| == 10 && s[8] != ' ' {
      ParsedPadded(s, d);
    }
    if Format(d) == s {
      assert s[8] == Padded(d.day, 2)[0];
    }
  }

  /** Text order of formatted dates is chronological order. */
  lemma FormatOrder(a: Date, b: Date)
    requires ValidDate(a) && ValidDate(b)
    ensures Lexical.Less(Format(a), Format(b)) <==> Before(a, b)
  {
    var ya, ma, da := Padded(a.year, 4), Padded(a.month, 2), Padded(a.day, 2);
    var yb, mb, db := Padded(b.year, 4), Padded(b.month, 2), Padded(b.day, 2);
    FormatIs(a);
    FormatIs(b);
    assert Format(a) == ya + ("/" + (ma + ("/" + da)));
    assert Format(b) == yb + ("/" + (mb + ("/" + db)));
    PaddedOrder(a.year, b.year, 4);
    PaddedOrder(a.month, b.month, 2);
    PaddedOrder(a.day, b.day, 2);
    PaddedInjective(a.year, b.year, 4);
    PaddedInjective(a.month, b.month, 2);
    Lexical.Irreflexive("/");
    Lexical.LessConcat(ya, yb, "/" + (ma + ("/" + da)), "/" + (mb + ("/" + db)));
    Lexical.LessConcat("/", "/", ma + ("/" + da), mb + ("/" + db));
    Lexical.LessConcat(ma, mb, "/" + da, "/" + db);
    Lexical.LessConcat("/", "/", da, db);
  }

  lemma FormatInjective(a: Date, b: Date)
    requires ValidDate(a) && ValidDate(b)
    ensures Format(a) == Format(b) <==> a == b
  {
    ParseFormat(a);
    ParseFormat(b);
  }
}

=== FILE: lexical.dfy ===
/**
 * The ordering Python uses for `str` values (code point by code point, a proper
 * prefix first) and `sorted()` over a set of such keys.
 */
module Lexical {

  /** `a < b` on Python strings: a proper prefix sorts before the longer string. */
  predicate Less(a: string, b: string)
    ensures a < b ==> Less(a, b)
    ensures b <= a ==> !Less(a, b)
    decreases |a|
  {
    if |a| == 0 then |b| > 0
    else if |b| == 0 then false
    else a[0] < b[0] || (a[0] == b[0] && Less(a[1..], b[1..]))
  }

  /** No string sorts before itself: the prefix rule of `Less` with `b == a`. */
  lemma Irreflexive(a: string)
    ensures !Less(a, a)
  {
  }

  lemma {:induction false} Asymmetric(a: string, b: string)
    ensures Less(a, b) ==> !Less(b, a)
    decreases |a|
  {
    if |a| > 0 && |b| > 0 {
      Asymmetric(a[1..], b[1..]);
    }
  }

  lemma {:induction false} Transitive(a: string, b: string, c: string)
    requires Less(a, b) && Less(b, c)
    ensures Less(a, c)
    decreases |a|
  {
    if |a| > 0 && a[0] == b[0] && b[0] == c[0] {
      Transitive(a[1..], b[1..], c[1..]);
    }
  }

  lemma {:induction false} Trichotomy(a: string, b: string)
    ensures a == b || Less(a, b) || Less(b, a)
    decreases |a|
  {
    if |a| > 0 && |b| > 0 && a[0] == b[0] {
      Trichotomy(a[1..], b[1..]);
      if a[1..] == b[1..] {
        assert a == [a[0]] + a[1..] && b == [b[0]] + b[1..];
      }
    }
  }

  /**
   * Comparing `x + u` with `y + v` where `x` and `y` have the same length: the
   * first parts decide, and only when they are equal do the second parts.
   */
  lemma {:induction false} LessConcat(x: string, y: string, u: string, v: string)
    requires |x| == |y|
    ensures Less(x + u, y + v) <==> Less(x, y) || (x == y && Less(u, v))
    decreases |x|
  {
    if |x| == 0 {
      assert x + u == u && y + v == v;
    } else {
      assert (x + u)[1..] == x[1..] + u && (y + v)[1..] == y[1..] + v;
      LessConcat(x[1..], y[1..], u, v);
      Irreflexive(x);
      if x[0] == y[0] && x[1..] == y[1..] {
        assert x == [x[0]] + x[1..] && y == [y[0]] + y[1..];
      }
    }
  }

  ghost predicate StrictlyAscending(s: seq<string>)
  {
    forall i, j {:trigger Less(s[i], s[j])} :: 0 <= i < j < |s| ==> Less(s[i], s[j])
  }

  /** No element occurs twice: none occurs before its own position. */
  ghost predicate Distinct(s: seq<string>)
  {
    forall i :: 0 <= i < |s| ==> s[i] !in s[..i]
  }

  /** Keys in strictly ascending order are distinct. */
  lemma AscendingDistinct(s: seq<string>)
    requires StrictlyAscending(s)
    ensures Distinct(s)
  {
    forall i | 0 <= i < |s|
      ensures s[i] !in s[..i]
    {
      if s[i] in s[..i] {
        var j :| 0 <= j < i && s[..i][j] == s[i];
        assert Less(s[j], s[i]);
        Irreflexive(s[i]);
      }
    }
  }

  /** `m` is the smallest member of `s`. */
  predicate IsLeast(m: string, s: set<string>)
  {
    m in s && forall x :: x in s && x != m ==> Less(m, x)
  }

  lemma {:induction false} LeastExists(s: set<string>)
    requires s != {}
    ensures exists m :: IsLeast(m, s)
    decreases |s|
  {
    var x :| x in s;
    if s == {x} {
      assert IsLeast(x, s);
    } else {
      LeastExists(s - {x});
      var m :| IsLeast(m, s - {x});
      Trichotomy(x, m);
      if Less(x, m) {
        forall y | y in s && y != x
          ensures Less(x, y)
        {
          if y != m {
            Transitive(x, m, y);
          }
        }
        assert IsLeast(x, s);
      } else {
        assert IsLeast(m, s);
      }
    }
  }

  lemma LeastUnique(s: set<string>)
    ensures forall m, n :: IsLeast(m, s) && IsLeast(n, s) ==> m == n
  {
    forall m, n | IsLeast(m, s) && IsLeast(n, s)
      ensures m == n
    {
      Asymmetric(m, n);
    }
  }

  /** Python's `sorted()` applied to a collection of distinct keys. */
  function Sorted(s: set<string>): (r: seq<string>)
    ensures |r| == |s|
    ensures forall x :: x in r <==> x in s
    ensures StrictlyAscending(r)
    decreases |s|
  {
    if s == {} then []
    else
      LeastExists(s);
      LeastUnique(s);
      var m :| IsLeast(m, s);
      var rest := Sorted(s - {m});
      assert forall j :: 0 <= j < |rest| ==> Less(m, rest[j]) by {
        forall j | 0 <= j < |rest|
          ensures Less(m, rest[j])
        {
          assert rest[j] in rest;
          assert rest[j] in s - {m};
        }
      }
      [m] + rest
  }
}

=== FILE: numerals.dfy ===
/**
 * Decimal text: zero-padded fields as `strftime` writes them, `str()` of an
 * integer, and `int()` applied to a string.
 */
module Numerals {
  import opened Wrappers
  import Lexical

  predicate IsDigit(c: char)
  {
    '0' <= c <= '9'
  }

  predicate AllDigits(s: string)
  {
    forall i :: 0 <= i < |s| ==> IsDigit(s[i])
  }

  function DigitValue(c: char): (n: nat)
    requires IsDigit(c)
    ensures n < 10
  {
    c as int - '0' as int
  }

  function DigitChar(n: nat): (c: char)
    requires n < 10
    ensures IsDigit(c) && DigitValue(c) == n
  {
    ('0' as int + n) as char
  }

  function Pow10(n: nat): (r: nat)
    ensures r >= 1
  {
    if n == 0 then 1 else 10 * Pow10(n - 1)
  }

  /** The number a string of decimal digits denotes (leading zeros allowed). */
  function Value(s: string): (v: nat)
    requires AllDigits(s)
    ensures v < Pow10(|s|)
  {
    if s == [] then 0 else Value(s[..|s| - 1]) * 10 + DigitValue(s[|s| - 1])
  }

  /** The last `width` decimal digits of `n`, zero-padded (`%04d`, `%02d`). */
  function Padded(n: nat, width: nat): (s: string)
    ensures |s| == width && AllDigits(s)
    decreases width, n
  {
    if width == 0 then "" else Padded(n / 10, width - 1) + [DigitChar(n % 10)]
  }

  /** Decimal digit `place` of `n`, counted from the right starting at 0. */
  function Digit(n: nat, place: nat): (r: nat)
    ensures r < 10
  {
    if place == 0 then n % 10 else Digit(n / 10, place - 1)
  }

  /** Character `j` of a padded field is digit `width - 1 - j` of the number. */
  lemma {:induction false} PaddedDigit(n: nat, width: nat, j: nat)
    requires j < width
    ensures Padded(n, width)[j] == DigitChar(Digit(n, width - 1 - j))
    decreases width
  {
    if j < width - 1 {
      PaddedDigit(n / 10, width - 1, j);
    }
  }

  lemma DivBound(n: nat, p: nat)
    requires n < 10 * p
    ensures n / 10 < p
  {
  }

  /** Reading a padded field back gives the number, when it fits the width. */
  lemma {:induction false} PaddedValue(n: nat, width: nat)
    requires n < Pow10(width)
    ensures Value(Padded(n, width)) == n
    decreases width
  {
    if width > 0 {
      DivBound(n, Pow10(width - 1));
      PaddedValue(n / 10, width - 1);
      var s := Padded(n, width);
      assert s[..|s| - 1] == Padded(n / 10, width - 1);
    }
  }

  /** A digit string is the padded form of its own value at its own width. */
  lemma {:induction false} ValuePadded(s: string)
    requires AllDigits(s)
    ensures Padded(Value(s), |s|) == s
    decreases |s|
  {
    if s != [] {
      var init := s[..|s| - 1];
      ValuePadded(init);
      var v := Value(s);
      assert v / 10 == Value(init) && v % 10 == DigitValue(s[|s| - 1]);
      assert s == init + [s[|s| - 1]];
    }
  }

  lemma PaddedInjective(a: nat, b: nat, width: nat)
    requires a < Pow10(width) && b < Pow10(width)
    ensures Padded(a, width) == Padded(b, width) <==> a == b
  {
    PaddedValue(a, width);
    PaddedValue(b, width);
  }

  /** For numbers that fit the width, text order of padded fields is numeric order. */
  lemma {:induction false} PaddedOrder(a: nat, b: nat, width: nat)
    requires a < Pow10(width) && b < Pow10(width)
    ensures Lexical.Less(Padded(a, width), Padded(b, width)) <==> a < b
    decreases width
  {
    if width == 0 {
      assert Padded(a, width) == Padded(b, width) == "";
    } else {
      DivBound(a, Pow10(width - 1));
      DivBound(b, Pow10(width - 1));
      PaddedOrder(a / 10, b / 10, width - 1);
      PaddedInjective(a / 10, b / 10, width - 1);
      var ca, cb := DigitChar(a % 10), DigitChar(b % 10);
      Lexical.LessConcat(Padded(a / 10, width - 1), Padded(b / 10, width - 1), [ca], [cb]);
      assert Lexical.Less([ca], [cb]) <==> ca < cb;
      assert ca < cb <==> a % 10 < b % 10;
    }
  }

  /** `str(n)` for a non-negative integer: no leading zeros, "0" for zero. */
  function NatText(n: nat): (s: string)
    ensures |s| > 0 && AllDigits(s)
    ensures s[0] == '0' <==> n == 0
    ensures n == 0 ==> s == "0"
    decreases n
  {
    if n < 10 then [DigitChar(n)] else NatText(n / 10) + [DigitChar(n % 10)]
  }

  lemma {:induction false} NatTextValue(n: nat)
    ensures Value(NatText(n)) == n
    decreases n
  {
    if n >= 10 {
      NatTextValue(n / 10);
      var s := NatText(n);
      assert s[..|s| - 1] == NatText(n / 10);
    }
  }

  /** `str(i)` for any integer. */
  function IntText(i: int): (s: string)
    ensures |s| > 0 && (s[0] == '-' <==> i < 0)
    ensures i < 0 ==> |s| > 1 && AllDigits(s[1..])
    ensures i >= 0 ==> AllDigits(s)
  {
    if i < 0 then "-" + NatText(-i) else NatText(i)
  }

  /** The whitespace `int()` ignores around its argument (the ASCII part of it). */
  predicate IsSpace(c: char)
  {
    c == ' ' || c == '\t' || c == '\n' || c == '\r' || c as int == 11 || c as int == 12
  }

  function TrimStart(s: string): (r: string)
    ensures r == [] || !IsSpace(r[0])
  {
    if s != [] && IsSpace(s[0]) then TrimStart(s[1..]) else s
  }

  function TrimEnd(s: string): (r: string)
    ensures r == [] || !IsSpace(r[|r| - 1])
  {
    if s != [] && IsSpace(s[|s| - 1]) then TrimEnd(s[..|s| - 1]) else s
  }

  /** Decimal digits, optionally grouped by single underscores (`1_000`). */
  predicate DigitGroups(b: string)
  {
    && |b| > 0
    && IsDigit(b[0])
    && IsDigit(b[|b| - 1])
    && forall i :: 0 <= i < |b| - 1 ==> IsDigit(b[i]) || (b[i] == '_' && IsDigit(b[i + 1]))
  }

  function KeepDigits(s: string): (r: string)
    ensures AllDigits(r)
  {
    if s == [] then []
    else if IsDigit(s[|s| - 1]) then KeepDigits(s[..|s| - 1]) + [s[|s| - 1]]
    else KeepDigits(s[..|s| - 1])
  }

  /** `int(s)` for a string `s` in base 10; `None` where Python raises `ValueError`. */
  function ParseInt(s: string): (r: Option<int>)
    ensures TrimEnd(TrimStart(s)) == [] ==> r == None
    ensures r.Some? && r.value < 0 ==> TrimEnd(TrimStart(s))[0] == '-'
  {
    ParseTrimmed(TrimEnd(TrimStart(s)))
  }

  /** `int()` of text without surrounding whitespace: an optional sign, then digit groups. */
  function ParseTrimmed(t: string): (r: Option<int>)
    ensures t == [] ==> r == None
    ensures r.Some? && r.value < 0 ==> t[0] == '-'
  {
    if t != [] && (t[0] == '+' || t[0] == '-') then
      var body := t[1..];
      if DigitGroups(body) then
        var magnitude: int := Value(KeepDigits(body));
        Some(if t[0] == '-' then -magnitude else magnitude)
      else None
    else if DigitGroups(t) then Some(Value(KeepDigits(t)))
    else None
  }

  lemma {:induction false} KeepAllDigits(s: string)
    requires AllDigits(s)
    ensures KeepDigits(s) == s
    decreases |s|
  {
    if s != [] {
      KeepAllDigits(s[..|s| - 1]);
      assert s == s[..|s| - 1] + [s[|s| - 1]];
    }
  }

  /** Every character of a digit-group string is a digit or an underscore. */
  lemma GroupsChars(b: string)
    requires DigitGroups(b)
    ensures forall i :: 0 <= i < |b| ==> IsDigit(b[i]) || b[i] == '_'
  {
    forall i | 0 <= i < |b|
      ensures IsDigit(b[i]) || b[i] == '_'
    {
      if i < |b| - 1 {
        var next := b[i + 1];  // names b[i + 1], so the grouping rule of DigitGroups applies at i
      }
    }
  }

  /**
   * `int()` accepts stripped text only when it is an optional leading sign followed by
   * digits and underscores; any other character (a letter, a dot, an inner space) raises.
   */
  lemma ParseTrimmedChars(t: string)
    requires ParseTrimmed(t).Some?
    ensures forall i :: 0 <= i < |t| ==> IsDigit(t[i]) || t[i] == '_' || (i == 0 && (t[i] == '+' || t[i] == '-'))
  {
    if t != [] && (t[0] == '+' || t[0] == '-') {
      var body := t[1..];
      GroupsChars(body);
      forall i | 1 <= i < |t|
        ensures IsDigit(t[i]) || t[i] == '_'
      {
        assert t[i] == body[i - 1];
      }
    } else {
      GroupsChars(t);
    }
  }

  /** A character that is not whitespace survives `TrimStart`. */
  lemma {:induction false} TrimStartKeeps(s: string, c: char)
    requires c in s && !IsSpace(c)
    ensures c in TrimStart(s)
    decreases |s|
  {
    if s != [] && IsSpace(s[0]) {
      assert c in s[1..] by {
        var i :| 0 <= i < |s| && s[i] == c;
        assert i > 0 && s[1..][i - 1] == c;
      }
      TrimStartKeeps(s[1..], c);
    }
  }

  /** A character that is not whitespace survives `TrimEnd`. */
  lemma {:induction false} TrimEndKeeps(s: string, c: char)
    requires c in s && !IsSpace(c)
    ensures c in TrimEnd(s)
    decreases |s|
  {
    if s != [] && IsSpace(s[|s| - 1]) {
      assert c in s[..|s| - 1] by {
        var i :| 0 <= i < |s| && s[i] == c;
        assert i < |s| - 1 && s[..|s| - 1][i] == c;
      }
      TrimEndKeeps(s[..|s| - 1], c);
    }
  }

  /**
   * `int(s)` raises `ValueError` for any text holding a character other than whitespace,
   * digits, signs and underscores.
   */
  lemma ParseIntChars(s: string)
    requires ParseInt(s).Some?
    ensures forall c :: c in s && !IsSpace(c) ==> IsDigit(c) || c in "+-_"
  {
    var t := TrimEnd(TrimStart(s));
    ParseTrimmedChars(t);
    forall c | c in s && !IsSpace(c)
      ensures IsDigit(c) || c in "+-_"
    {
      TrimStartKeeps(s, c);
      TrimEndKeeps(TrimStart(s), c);
      var i :| 0 <= i < |t| && t[i] == c;
    }
  }

  lemma NoSpaceAtEnds(s: string)
    requires |s| > 0 && !IsSpace(s[0]) && !IsSpace(s[|s| - 1])
    ensures TrimEnd(TrimStart(s)) == s
  {
  }

  lemma DigitsAreGroups(s: string)
    requires |s| > 0 && AllDigits(s)
    ensures DigitGroups(s)
  {
  }

  lemma ParseUnsigned(d: string)
    requires |d| > 0 && AllDigits(d)
    ensures ParseInt(d) == Some(Value(d))
  {
    NoSpaceAtEnds(d);
    DigitsAreGroups(d);
    KeepAllDigits(d);
  }

  lemma ParseSigned(t: string)
    requires |t| > 0 && (t[0] == '+' || t[0] == '-')
    requires DigitGroups(t[1..])
    ensures ParseTrimmed(t) == Some(if t[0] == '-' then -(Value(KeepDigits(t[1..])) as int) else Value(KeepDigits(t[1..])))
  {
  }

  lemma ParseNegative(d: string)
    requires |d| > 0 && AllDigits(d)
    ensures ParseInt("-" + d) == Some(-(Value(d) as int))
  {
    var s := "-" + d;
    assert s[0] == '-' && s[|s| - 1] == d[|d| - 1] && s[1..] == d;
    NoSpaceAtEnds(s);
    DigitsAreGroups(d);
    KeepAllDigits(d);
    ParseSigned(s);
  }

  /** `int(str(i)) == i`: the text of a reading reads back as the same reading. */
  lemma IntTextRoundTrip(i: int)
    ensures ParseInt(IntText(i)) == Some(i)
  {
    var n: nat := if i < 0 then -i else i;
    var digits := NatText(n);
    NatTextValue(n);
    if i < 0 {
      assert IntText(i) == "-" + digits;
      ParseNegative(digits);
    } else {
      assert IntText(i) == digits;
      ParseUnsigned(digits);
    }
  }
}

=== FILE: readings.dfy ===
/**
 * One day's record: a date and three optional readings (systolic, diastolic,
 * glucose), built from raw inputs by validation and normalisation, and its text form.
 */
module Readings {
  import opened Wrappers
  import opened Numerals
  import opened Dates

  /** What a caller may pass as the date. */
  datatype RawDate =
    | NoDate                     // None
    | DateText(text: string)     // a str, parsed with "%Y/%m/%d"
    | DateValue(value: Date)     // a datetime
    | OtherDate(truthy: bool)    // any other object, falsy (0, [], ...) or not

  /** What a caller may pass as one reading. */
  datatype RawReading =
    | NoReading                  // None
    | TextReading(text: string)  // a str, as read from a CSV cell
    | IntReading(n: int)         // an int

  /** A reading of `None` is "no reading"; it is never confused with a measured 0. */
  datatype BPGEntry = BPGEntry(date: Date, systolic: Option<int>, diastolic: Option<int>, glucose: Option<int>)

  /** The ValueError messages the constructor raises. */
  datatype EntryError =
    | DateRequired               // "Date is required"
    | DateNotDateLike            // "Date must be a YYYY/MM/DD string or a datetime object"
    | DateUnparsable(text: string)
    | ReadingNotInteger(text: string)

  /** `not date`. */
  predicate DateFalsy(d: RawDate)
  {
    d.NoDate? || d == DateText("") || d == OtherDate(false)
  }

  /** `not value`: None, the empty string and 0 mean "no reading". */
  predicate Falsy(v: RawReading)
  {
    v.NoReading? || v == TextReading("") || v == IntReading(0)
  }

  /** An entry with all three readings absent, as gap-filling creates. */
  function Blank(d: Date): (e: BPGEntry)
    ensures e.date == d && e.systolic.None? && e.diastolic.None? && e.glucose.None?
  {
    BPGEntry(d, None, None, None)
  }

  /** One channel: falsy input is "no reading", anything else goes through `int()`. */
  function Normalize(v: RawReading): (r: Result<Option<int>, EntryError>)
    ensures r == Ok(None) <==> Falsy(v)
    ensures v.IntReading? && v.n != 0 ==> r == Ok(Some(v.n))
    ensures v.TextReading? && v.text != "" ==>
              (r.Ok? <==> ParseInt(v.text).Some?)
              && (r.Ok? ==> r.value == ParseInt(v.text))
              && (r.Err? ==> r.error == ReadingNotInteger(v.text))
  {
    match v
    case NoReading => Ok(None)
    case IntReading(n) => if n == 0 then Ok(None) else Ok(Some(n))
    case TextReading(s) =>
      if s == "" then Ok(None)
      else match ParseInt(s)
        case Some(n) => Ok(Some(n))
        case None => Err(ReadingNotInteger(s))
  }

  /** The date check of the constructor, before any reading is looked at. */
  function CheckDate(date: RawDate): (r: Result<Date, EntryError>)
    requires date.DateValue? ==> ValidDate(date.value)
    ensures DateFalsy(date) ==> r == Err(DateRequired)
    ensures date.OtherDate? && date.truthy ==> r == Err(DateNotDateLike)
    ensures date.DateText? && date.text != "" ==>
              match ParseDate(date.text)
              case Some(d) => r == Ok(d)
              case None => r == Err(DateUnparsable(date.text))
    ensures date.DateValue? ==> r == Ok(date.value)
    ensures r.Ok? ==> ValidDate(r.value)
  {
    if DateFalsy(date) then Err(DateRequired)
    else match date
      case DateText(s) =>
        (match ParseDate(s)
         case Some(d) => Ok(d)
         case None => Err(DateUnparsable(s)))
      case DateValue(d) => Ok(d)
      case _ => Err(DateNotDateLike)
  }

  /**
   * `BPGEntry(date, systolic, diastolic, glucose)`: the date is checked first, then
   * the three readings in order; the first failure is the error raised.
   */
  function NewEntry(date: RawDate, systolic: RawReading, diastolic: RawReading, glucose: RawReading)
    : (r: Result<BPGEntry, EntryError>)
    requires date.DateValue? ==> ValidDate(date.value)
    ensures CheckDate(date).Err? ==> r == Err(CheckDate(date).error)
    ensures CheckDate(date).Ok? && Normalize(systolic).Err? ==> r == Err(Normalize(systolic).error)
    ensures CheckDate(date).Ok? && Normalize(systolic).Ok? && Normalize(diastolic).Err? ==>
              r == Err(Normalize(diastolic).error)
    ensures CheckDate(date).Ok? && Normalize(systolic).Ok? && Normalize(diastolic).Ok? && Normalize(glucose).Err? ==>
              r == Err(Normalize(glucose).error)
    ensures r.Ok? <==> CheckDate(date).Ok? && Normalize(systolic).Ok? && Normalize(diastolic).Ok? && Normalize(glucose).Ok?
    ensures r.Ok? ==> ValidDate(r.value.date) && r.value.date == CheckDate(date).value
    ensures r.Ok? ==> (r.value.systolic.None? <==> Falsy(systolic))
                      && (r.value.diastolic.None? <==> Falsy(diastolic))
                      && (r.value.glucose.None? <==> Falsy(glucose))
  {
    match CheckDate(date)
    case Err(e) => Err(e)
    case Ok(d) =>
      match Normalize(systolic)
      case Err(e) => Err(e)
      case Ok(s) =>
        match Normalize(diastolic)
        case Err(e) => Err(e)
        case Ok(di) =>
          match Normalize(glucose)
          case Err(e) => Err(e)
          case Ok(g) => Ok(BPGEntry(d, s, di, g))
  }

  /** Each reading depends on its own input only, whatever the other two are. */
  lemma ChannelsIndependent(date: RawDate, s: RawReading, d: RawReading, g: RawReading,
                            s': RawReading, d': RawReading, g': RawReading)
    requires date.DateValue? ==> ValidDate(date.value)
    requires NewEntry(date, s, d, g).Ok? && NewEntry(date, s', d', g').Ok?
    ensures s == s' ==> NewEntry(date, s, d, g).value.systolic == NewEntry(date, s', d', g').value.systolic
    ensures d == d' ==> NewEntry(date, s, d, g).value.diastolic == NewEntry(date, s', d', g').value.diastolic
    ensures g == g' ==> NewEntry(date, s, d, g).value.glucose == NewEntry(date, s', d', g').value.glucose
  {
  }

  /** The text "0" is a present reading of 0, unlike the integer 0. */
  lemma ZeroTextIsReading()
    ensures Normalize(TextReading("0")) == Ok(Some(0))
    ensures Normalize(IntReading(0)) == Ok(None)
  {
    ParseUnsigned("0");
  }

  /** `BPGEntry(key)` for a parseable key: that day with no readings. */
  lemma DateOnlyIsBlank(key: string)
    requires ParseDate(key).Some?
    ensures NewEntry(DateText(key), NoReading, NoReading, NoReading) == Ok(Blank(ParseDate(key).value))
  {
  }

  /** One slot of the text form: "-" for no reading, else `str()` of the reading. */
  function ChannelText(v: Option<int>): (s: string)
    ensures |s| > 0 && '/' !in s && ' ' !in s
  {
    match v
    case None => "-"
    case Some(n) => IntText(n)
  }

  /** The three slots of the text form: "systolic/diastolic glucose". */
  function SlotsText(e: BPGEntry): (s: string)
  {
    ChannelText(e.systolic) + "/" + ChannelText(e.diastolic) + " " + ChannelText(e.glucose)
  }

  /** `str(entry)`: "YYYY/MM/DD: systolic/diastolic glucose". */
  function EntryText(e: BPGEntry): (s: string)
    requires ValidDate(e.date)
    ensures |s| >= 12 && s[..10] == Format(e.date) && s[10..12] == ": " && s[12..] == SlotsText(e)
  {
    Format(e.date) + ": " + SlotsText(e)
  }

  /** `__str__`, which collects the date and the three slots in a list first. */
  method Render(e: BPGEntry) returns (s: string)
    requires ValidDate(e.date)
    ensures s == EntryText(e)
  {
    var mstrs := [Format(e.date)];
    var channels := [e.systolic, e.diastolic, e.glucose];
    for i := 0 to 3
      invariant |mstrs| == i + 1 && mstrs[0] == Format(e.date)
      invariant forall j :: 0 <= j < i ==> mstrs[j + 1] == ChannelText(channels[j])
    {
      if channels[i].None? {
        mstrs := mstrs + ["-"];
      } else {
        mstrs := mstrs + [IntText(channels[i].value)];
      }
    }
    assert channels[0] == e.systolic && channels[1] == e.diastolic && channels[2] == e.glucose;
    assert mstrs[1] == ChannelText(e.systolic) && mstrs[2] == ChannelText(e.diastolic)
      && mstrs[3] == ChannelText(e.glucose);
    s := mstrs[0] + ": " + (mstrs[1] + "/" + mstrs[2] + " " + mstrs[3]);
  }

  /** A slot reads back through `int()` as the reading it shows; "-" does not. */
  lemma ChannelTextReadsBack(v: Option<int>)
    ensures v.Some? ==> Normalize(TextReading(ChannelText(v))) == Ok(v)
    ensures v.None? ==> Normalize(TextReading(ChannelText(v))).Err?
  {
    if v.Some? {
      IntTextRoundTrip(v.value);
    }
  }

  /** Cutting `x + [c] + y` at its first `c` gives back `x` and `y`. */
  lemma SplitAtFirst(x: string, y: string, x': string, y': string, c: char)
    requires c !in x && c !in x'
    requires x + [c] + y == x' + [c] + y'
    ensures x == x' && y == y'
  {
    var s := x + [c] + y;
    assert |x| == |x'| by {
      assert forall i :: 0 <= i < |x| ==> s[i] == x[i] != c;
      assert forall i :: 0 <= i < |x'| ==> s[i] == x'[i] != c;
      assert s[|x|] == c && s[|x'|] == c;
    }
    assert x == s[..|x|] == x';
    assert y == s[|x| + 1..] == y';
  }

  lemma ChannelTextInjective(v: Option<int>, w: Option<int>)
    requires ChannelText(v) == ChannelText(w)
    ensures v == w
  {
    ChannelTextReadsBack(v);
    ChannelTextReadsBack(w);
  }

  /** "x/y z" with no '/' in `x` and no ' ' in `y` determines `x`, `y` and `z`. */
  lemma SlotsSplit(x: string, y: string, z: string, x': string, y': string, z': string)
    requires '/' !in x && '/' !in x' && ' ' !in y && ' ' !in y'
    requires x + "/" + y + " " + z == x' + "/" + y' + " " + z'
    ensures x == x' && y == y' && z == z'
  {
    assert x + "/" + y + " " + z == x + ['/'] + (y + [' '] + z);
    assert x' + "/" + y' + " " + z' == x' + ['/'] + (y' + [' '] + z');
    SplitAtFirst(x, y + [' '] + z, x', y' + [' '] + z', '/');
    SplitAtFirst(y, z, y', z', ' ');
  }

  /** The slots determine the three readings. */
  lemma SlotsTextInjective(a: BPGEntry, b: BPGEntry)
    requires SlotsText(a) == SlotsText(b)
    ensures a.systolic == b.systolic && a.diastolic == b.diastolic && a.glucose == b.glucose
  {
    SlotsSplit(ChannelText(a.systolic), ChannelText(a.diastolic), ChannelText(a.glucose),
               ChannelText(b.systolic), ChannelText(b.diastolic), ChannelText(b.glucose));
    ChannelTextInjective(a.systolic, b.systolic);
    ChannelTextInjective(a.diastolic, b.diastolic);
    ChannelTextInjective(a.glucose, b.glucose);
  }

  /** Different entries print differently: the text form loses nothing. */
  lemma EntryTextInjective(a: BPGEntry, b: BPGEntry)
    requires ValidDate(a.date) && ValidDate(b.date)
    requires EntryText(a) == EntryText(b)
    ensures a == b
  {
    FormatInjective(a.date, b.date);
    SlotsTextInjective(a, b);
  }
}

=== FILE: series.dfy ===
/**
 * The Timeseries container: at most one BPGEntry per day, keyed by the day's
 * "%Y/%m/%d" text, kept in key order, with every missing day between the first
 * and the last key filled by an entry without readings.
 */
module Series {
  import opened Wrappers
  import opened Lexical
  import opened Dates
  import opened Readings

  /** An element of a list or tuple handed to `bulk_load`. */
  datatype Item = AnEntry(entry: BPGEntry) | NotAnEntry

  /** What `bulk_load` (and the constructor) may be given. */
  datatype Source =
    | Entries(items: seq<Item>)               // a list or a tuple
    | Mapping(dict: map<string, BPGEntry>)    // a dict from key text to entry
    | Unsupported(truthy: bool)               // any other object

  /** The exceptions the container's operations raise. */
  datatype Error =
    | NotAnEntryError      // ValueError "Timeseries only accepts BGPEntries"
    | NotACollection       // ValueError "Timeseries must be dict, list, or tuple"
    | EmptySeries          // IndexError from `sortedkeys[-1]`
    | BadKey(key: string)  // ValueError from `strptime` on a dict key
    | DateOverflow         // OverflowError from stepping past 9999/12/31
    | KeyNotFound(key: string)

  /** Every entry carries a real date, as a constructed BPGEntry always does. */
  ghost predicate WellFormed(src: Source)
  {
    match src
    case Entries(items) => forall i :: 0 <= i < |items| && items[i].AnEntry? ==> ValidDate(items[i].entry.date)
    case Mapping(dict) => forall k :: k in dict ==> ValidDate(dict[k].date)
    case Unsupported(_) => true
  }

  /** The key an entry is stored under: its date as "%Y/%m/%d". */
  function KeyOf(e: BPGEntry): (k: string)
    requires ValidDate(e.date)
    ensures |k| == 10
  {
    Format(e.date)
  }

  /** Every entry of `m` is stored under its own date's key. */
  ghost predicate KeyedByDate(m: map<string, BPGEntry>)
  {
    && (forall k :: k in m ==> ValidDate(m[k].date))
    && (forall k {:trigger KeyOf(m[k])} :: k in m ==> KeyOf(m[k]) == k)
  }

  /** The dictionary built from a list of entries, later entries overwriting earlier ones. */
  function Merge(es: seq<BPGEntry>): (m: map<string, BPGEntry>)
    requires forall i :: 0 <= i < |es| ==> ValidDate(es[i].date)
    ensures forall i {:trigger KeyOf(es[i])} :: 0 <= i < |es| ==> KeyOf(es[i]) in m
    ensures KeyedByDate(m)
  {
    if es == [] then map[]
    else
      var last := es[|es| - 1];
      Merge(es[..|es| - 1])[KeyOf(last) := last]
  }

  /** Every key of the merged dictionary is the key of some entry of the list. */
  lemma {:induction false} MergeKeysFromEntries(es: seq<BPGEntry>)
    requires forall i :: 0 <= i < |es| ==> ValidDate(es[i].date)
    ensures forall k :: k in Merge(es) ==> exists i :: 0 <= i < |es| && KeyOf(es[i]) == k
  {
    if es != [] {
      var front, last := es[..|es| - 1], es[|es| - 1];
      MergeKeysFromEntries(front);
      assert Merge(es) == Merge(front)[KeyOf(last) := last];
      forall k | k in Merge(es)
        ensures exists i :: 0 <= i < |es| && KeyOf(es[i]) == k
      {
        if k == KeyOf(last) {
          assert KeyOf(es[|es| - 1]) == k;
        } else {
          assert k in Merge(front);
          var i :| 0 <= i < |front| && KeyOf(front[i]) == k;
          assert es[i] == front[i];
        }
      }
    }
  }

  predicate AllEntries(items: seq<Item>)
  {
    forall i :: 0 <= i < |items| ==> items[i].AnEntry?
  }

  function EntriesOf(items: seq<Item>): (es: seq<BPGEntry>)
    requires AllEntries(items)
    ensures |es| == |items| && forall i :: 0 <= i < |items| ==> es[i] == items[i].entry
  {
    if items == [] then [] else EntriesOf(items[..|items| - 1]) + [items[|items| - 1].entry]
  }

  /** Python truth value of what the constructor is given (`None` is a falsy `Unsupported`). */
  predicate Truthy(src: Source)
  {
    match src
    case Entries(items) => |items| > 0
    case Mapping(dict) => |dict| > 0
    case Unsupported(truthy) => truthy
  }

  /** Sources from which `bulk_load` builds its dictionary `tsd`. */
  predicate Collectable(src: Source)
  {
    src.Mapping? || (src.Entries? && AllEntries(src.items))
  }

  /** The dictionary `tsd` that `bulk_load` builds before sorting. */
  function Collected(src: Source): (m: map<string, BPGEntry>)
    requires Collectable(src) && WellFormed(src)
  {
    if src.Mapping? then src.dict else Merge(EntriesOf(src.items))
  }

  /** A key written exactly as `strftime` writes some date. */
  ghost predicate Canonical(k: string)
  {
    exists d :: ValidDate(d) && Format(d) == k
  }

  ghost predicate CanonicalKeys(m: map<string, BPGEntry>)
  {
    forall k :: k in m ==> Canonical(k)
  }

  /** The date a canonical key names. */
  ghost function KeyDate(k: string): (d: Date)
    requires Canonical(k)
    ensures ValidDate(d) && Format(d) == k
  {
    var d :| ValidDate(d) && Format(d) == k; d
  }

  /** The date of a canonical key is the one `strptime` reads from it. */
  lemma KeyDateParses(k: string)
    requires Canonical(k)
    ensures ParseDate(k) == Some(KeyDate(k))
  {
    ParseFormat(KeyDate(k));
  }

  lemma KeyDateOfFormat(d: Date)
    requires ValidDate(d)
    ensures Canonical(Format(d)) && KeyDate(Format(d)) == d
  {
    FormatInjective(d, KeyDate(Format(d)));
  }

  /** `b` is the key of the day after the day `a` names. */
  ghost predicate NextKey(a: string, b: string)
  {
    Canonical(a) && KeyDate(a) != MaxDate && b == Format(NextDay(KeyDate(a)))
  }

  /** The `i`-th key names the day after the one before it. */
  ghost predicate Linked(ks: seq<string>, i: int)
    requires 0 < i < |ks|
  {
    NextKey(ks[i - 1], ks[i])
  }

  /** Canonical keys of consecutive days. */
  ghost predicate Chain(ks: seq<string>)
  {
    && (forall i {:trigger Canonical(ks[i])} :: 0 <= i < |ks| ==> Canonical(ks[i]))
    && (forall i :: 0 < i < |ks| ==> Linked(ks, i))
  }

  /**
   * What `bulk_load` leaves behind for the dictionary `m`: the keys `ks` run day by
   * day from a key of `m` to a key of `m`, every entry of `m` is kept, and every
   * other day holds an entry without readings.
   */
  ghost predicate DenseLoad(m: map<string, BPGEntry>, ks: seq<string>, t: map<string, BPGEntry>)
  {
    && |ks| > 0 && Chain(ks)
    && ks[0] in m && ks[|ks| - 1] in m
    && (forall k :: k in t <==> k in ks)
    && (forall k :: k in m ==> k in t && t[k] == m[k])
    && (forall k :: k in t && k !in m ==> Canonical(k) && t[k] == Blank(KeyDate(k)))
  }

  /** Distance of a date from the last representable day; each step forward lowers it. */
  ghost function Rank(d: Date): (r: int)
  {
    (9999 - d.year) * 400 + (12 - d.month) * 32 + (31 - d.day)
  }

  ghost function KeyRank(k: string): (r: nat)
  {
    match ParseDate(k)
    case Some(d) => Rank(d)
    case None => 0
  }

  lemma RankDecreases(d: Date)
    requires ValidDate(d) && d != MaxDate
    ensures 0 <= Rank(NextDay(d)) < Rank(d)
  {
  }

  /** A truthy source that can be collected gives a non-empty dictionary. */
  lemma CollectedNonEmpty(src: Source)
    requires WellFormed(src) && Collectable(src) && Truthy(src)
    ensures Collected(src) != map[]
  {
    if src.Entries? {
      var es := EntriesOf(src.items);
      assert KeyOf(es[0]) in Merge(es);
    }
  }

  /** A KeyOf is canonical, and a canonical key is the KeyOf its date. */
  lemma KeyOfCanonical(e: BPGEntry)
    requires ValidDate(e.date)
    ensures ParseDate(KeyOf(e)) == Some(e.date)
    ensures Canonical(KeyOf(e)) && KeyDate(KeyOf(e)) == e.date
  {
    ParseFormat(e.date);
    KeyDateOfFormat(e.date);
  }

  /** Merging keeps, for each key, the entry that came last in the list. */
  lemma {:induction false} MergeLastWins(es: seq<BPGEntry>, i: int)
    requires forall j :: 0 <= j < |es| ==> ValidDate(es[j].date)
    requires 0 <= i < |es|
    requires forall j :: i < j < |es| ==> KeyOf(es[j]) != KeyOf(es[i])
    ensures Merge(es)[KeyOf(es[i])] == es[i]
  {
    if i < |es| - 1 {
      MergeLastWins(es[..|es| - 1], i);
    }
  }

  /** The dictionary built from a list has canonical keys, each naming its entry's date. */
  lemma MergeKeyedByDate(es: seq<BPGEntry>)
    requires forall i :: 0 <= i < |es| ==> ValidDate(es[i].date)
    ensures KeyedByDate(Merge(es)) && CanonicalKeys(Merge(es))
  {
    var m := Merge(es);
    forall k | k in m
      ensures ValidDate(m[k].date) && KeyOf(m[k]) == k && Canonical(k)
    {
      KeyOfCanonical(m[k]);
    }
  }

  lemma KeyedIsCanonical(m: map<string, BPGEntry>)
    requires KeyedByDate(m)
    ensures CanonicalKeys(m)
  {
    forall k | k in m
      ensures Canonical(k)
    {
      KeyOfCanonical(m[k]);
    }
  }

  /** Along a chain the days strictly increase. */
  lemma {:induction false} ChainBefore(ks: seq<string>, i: int, j: int)
    requires Chain(ks) && 0 <= i < j < |ks|
    ensures Before(KeyDate(ks[i]), KeyDate(ks[j]))
    decreases j - i
  {
    assert Linked(ks, j);
    KeyDateOfFormat(NextDay(KeyDate(ks[j - 1])));
    if i < j - 1 {
      ChainBefore(ks, i, j - 1);
    }
  }

  /** A chain is in ascending key order, which is also date order. */
  lemma ChainAscending(ks: seq<string>)
    requires Chain(ks)
    ensures StrictlyAscending(ks)
    ensures forall i, j :: 0 <= i < j < |ks| ==> Before(KeyDate(ks[i]), KeyDate(ks[j]))
  {
    forall i, j | 0 <= i < j < |ks|
      ensures Less(ks[i], ks[j]) && Before(KeyDate(ks[i]), KeyDate(ks[j]))
    {
      ChainBefore(ks, i, j);
      FormatOrder(KeyDate(ks[i]), KeyDate(ks[j]));
    }
  }

  /** A chain leaves no day out between its first and its last key. */
  lemma {:induction false} ChainCovers(ks: seq<string>, d: Date)
    requires Chain(ks) && |ks| > 0 && ValidDate(d)
    requires !Before(d, KeyDate(ks[0])) && !Before(KeyDate(ks[|ks| - 1]), d)
    ensures Format(d) in ks
  {
    var last := ks[|ks| - 1];
    assert Canonical(ks[|ks| - 1]);
    if d == KeyDate(last) {
      assert Format(d) == last;
    } else {
      assert Canonical(ks[|ks| - 2]) && Linked(ks, |ks| - 1);
      var prev := KeyDate(ks[|ks| - 2]);
      KeyDateOfFormat(NextDay(prev));
      assert !Before(prev, d);
      ChainPrefix(ks, |ks| - 1);
      ChainCovers(ks[..|ks| - 1], d);
    }
  }

  lemma ChainPrefix(ks: seq<string>, n: int)
    requires Chain(ks) && 0 <= n <= |ks|
    ensures Chain(ks[..n])
  {
    forall i | 0 <= i < n
      ensures Canonical(ks[..n][i])
    {
      assert Canonical(ks[i]);
    }
    forall i | 0 < i < n
      ensures Linked(ks[..n], i)
    {
      assert Linked(ks, i);
    }
  }

  lemma ChainExtend(ks: seq<string>)
    requires Chain(ks) && |ks| > 0 && KeyDate(ks[|ks| - 1]) != MaxDate
    ensures Chain(ks + [Format(NextDay(KeyDate(ks[|ks| - 1])))])
  {
    var next := Format(NextDay(KeyDate(ks[|ks| - 1])));
    var ks' := ks + [next];
    KeyDateOfFormat(NextDay(KeyDate(ks[|ks| - 1])));
    forall i | 0 <= i < |ks'|
      ensures Canonical(ks'[i])
    {
      if i < |ks| {
        assert Canonical(ks[i]);
      }
    }
    forall i | 0 < i < |ks'|
      ensures Linked(ks', i)
    {
      if i < |ks| {
        assert Linked(ks, i);
      }
    }
  }

  /** Two chains with the same first and last key are the same chain. */
  lemma {:induction false} ChainUnique(ks1: seq<string>, ks2: seq<string>)
    requires Chain(ks1) && Chain(ks2) && |ks1| > 0 && |ks2| > 0
    requires ks1[0] == ks2[0] && ks1[|ks1| - 1] == ks2[|ks2| - 1]
    ensures ks1 == ks2
  {
    var n := if |ks1| < |ks2| then |ks1| else |ks2|;
    for i := 1 to n
      invariant forall j :: 0 <= j < i ==> ks1[j] == ks2[j]
    {
      assert Linked(ks1, i) && Linked(ks2, i);
    }
    if |ks1| != |ks2| {
      ChainAscending(ks1);
      ChainAscending(ks2);
    }
  }

  /** The loaded keys are ascending and span exactly the least to the greatest key of `m`. */
  lemma DenseLoadSpan(m: map<string, BPGEntry>, ks: seq<string>, t: map<string, BPGEntry>)
    requires DenseLoad(m, ks, t)
    ensures StrictlyAscending(ks)
    ensures forall k :: k in m ==> k == ks[0] || Less(ks[0], k)
    ensures forall k :: k in m ==> k == ks[|ks| - 1] || Less(k, ks[|ks| - 1])
    ensures forall d :: ValidDate(d) && !Before(d, KeyDate(ks[0])) && !Before(KeyDate(ks[|ks| - 1]), d)
              ==> Format(d) in t
  {
    ChainAscending(ks);
    forall k | k in m
      ensures (k == ks[0] || Less(ks[0], k)) && (k == ks[|ks| - 1] || Less(k, ks[|ks| - 1]))
    {
      var i :| 0 <= i < |ks| && ks[i] == k;
    }
    forall d | ValidDate(d) && !Before(d, KeyDate(ks[0])) && !Before(KeyDate(ks[|ks| - 1]), d)
      ensures Format(d) in t
    {
      ChainCovers(ks, d);
    }
  }

  /** The result of a load is determined by the dictionary it was loaded from. */
  lemma DenseLoadUnique(m: map<string, BPGEntry>, ks1: seq<string>, t1: map<string, BPGEntry>,
                        ks2: seq<string>, t2: map<string, BPGEntry>)
    requires DenseLoad(m, ks1, t1) && DenseLoad(m, ks2, t2)
    ensures ks1 == ks2 && t1 == t2
  {
    DenseLoadSpan(m, ks1, t1);
    DenseLoadSpan(m, ks2, t2);
    Asymmetric(ks1[0], ks2[0]);
    Asymmetric(ks1[|ks1| - 1], ks2[|ks2| - 1]);
    ChainUnique(ks1, ks2);
  }

  /**
   * After loading a list, each date holds the entry that came last for it in the list.
   */
  lemma ListLoadLastWins(items: seq<Item>, ks: seq<string>, t: map<string, BPGEntry>, i: int)
    requires WellFormed(Entries(items)) && AllEntries(items)
    requires DenseLoad(Collected(Entries(items)), ks, t)
    requires 0 <= i < |items|
    requires forall j :: i < j < |items| ==> KeyOf(items[j].entry) != KeyOf(items[i].entry)
    ensures KeyOf(items[i].entry) in t && t[KeyOf(items[i].entry)] == items[i].entry
  {
    var es := EntriesOf(items);
    MergeLastWins(es, i);
    assert KeyOf(es[i]) in Merge(es);
  }

  /**
   * After loading a list, the series starts at the earliest date in the list and ends
   * at the latest one: both ends are dates of input entries, and every input date lies
   * between them.
   */
  lemma ListLoadSpan(items: seq<Item>, ks: seq<string>, t: map<string, BPGEntry>)
    requires WellFormed(Entries(items)) && AllEntries(items)
    requires DenseLoad(Collected(Entries(items)), ks, t)
    ensures exists i :: 0 <= i < |items| && KeyOf(items[i].entry) == ks[0]
    ensures exists i :: 0 <= i < |items| && KeyOf(items[i].entry) == ks[|ks| - 1]
    ensures forall i :: 0 <= i < |items| ==>
              !Before(items[i].entry.date, KeyDate(ks[0])) && !Before(KeyDate(ks[|ks| - 1]), items[i].entry.date)
  {
    var es := EntriesOf(items);
    var m := Merge(es);
    MergeKeysFromEntries(es);
    DenseLoadSpan(m, ks, t);
    var lo, hi := KeyDate(ks[0]), KeyDate(ks[|ks| - 1]);
    forall i | 0 <= i < |items|
      ensures !Before(items[i].entry.date, lo) && !Before(hi, items[i].entry.date)
    {
      var d := es[i].date;
      assert KeyOf(es[i]) in m;
      FormatOrder(d, lo);
      FormatOrder(hi, d);
      Asymmetric(Format(d), Format(lo));
      Irreflexive(Format(d));
      Asymmetric(Format(hi), Format(d));
    }
  }

  /** `list(od.values())` for keys `ks`. */
  function ValuesOf(ks: seq<string>, t: map<string, BPGEntry>): (vs: seq<BPGEntry>)
    requires forall i :: 0 <= i < |ks| ==> ks[i] in t
    ensures |vs| == |ks| && forall i :: 0 <= i < |ks| ==> vs[i] == t[ks[i]]
  {
    if ks == [] then [] else ValuesOf(ks[..|ks| - 1], t) + [t[ks[|ks| - 1]]]
  }

  /** In a table keyed by date, each value's date formats to the key it is listed under. */
  lemma ValuesMatchKeys(ks: seq<string>, t: map<string, BPGEntry>)
    requires KeyedByDate(t)
    requires forall i :: 0 <= i < |ks| ==> ks[i] in t
    ensures forall i :: 0 <= i < |ks| ==> ValidDate(ValuesOf(ks, t)[i].date) && KeyOf(ValuesOf(ks, t)[i]) == ks[i]
  {
    var vs := ValuesOf(ks, t);
    forall i | 0 <= i < |ks|
      ensures ValidDate(vs[i].date) && KeyOf(vs[i]) == ks[i]
    {
      assert vs[i] == t[ks[i]];
    }
  }

  /** Appending one entry to the list overwrites (or adds) its key. */
  lemma MergeSnoc(es: seq<BPGEntry>, e: BPGEntry)
    requires forall i :: 0 <= i < |es| ==> ValidDate(es[i].date)
    requires ValidDate(e.date)
    ensures Merge(es + [e]) == Merge(es)[KeyOf(e) := e]
  {
    assert (es + [e])[..|es|] == es;
  }

  /** The part of `t` on the keys `ks`. */
  ghost function Restrict(ks: seq<string>, t: map<string, BPGEntry>): (r: map<string, BPGEntry>)
    requires forall i :: 0 <= i < |ks| ==> ks[i] in t
    ensures forall k :: k in r <==> k in ks
  {
    map k | k in ks :: t[k]
  }

  lemma RestrictSnoc(ks: seq<string>, k: string, t: map<string, BPGEntry>)
    requires forall i :: 0 <= i < |ks| ==> ks[i] in t
    requires k in t
    ensures Restrict(ks + [k], t) == Restrict(ks, t)[k := t[k]]
  {
    assert forall x :: x in ks + [k] <==> x in ks || x == k;
  }

  lemma RestrictAll(ks: seq<string>, t: map<string, BPGEntry>)
    requires forall k :: k in ks <==> k in t
    ensures Restrict(ks, t) == t
  {
  }

  /** Merging the values of a keyed-by-date table, in any order of keys, rebuilds that part of it. */
  lemma {:induction false} MergeValues(ks: seq<string>, t: map<string, BPGEntry>)
    requires KeyedByDate(t)
    requires forall i :: 0 <= i < |ks| ==> ks[i] in t
    ensures Merge(ValuesOf(ks, t)) == Restrict(ks, t)
  {
    if ks == [] {
      assert Restrict(ks, t) == map[];
    } else {
      var front, last := ks[..|ks| - 1], ks[|ks| - 1];
      assert ks == front + [last];
      MergeValues(front, t);
      MergeSnoc(ValuesOf(front, t), t[last]);
      assert KeyOf(t[last]) == last;
      RestrictSnoc(front, last, t);
    }
  }

  /**
   * Loading the values of a loaded series rebuilds the same series: `bulk_load` of
   * `ts.values()` is a fixed point.
   */
  lemma ReloadIsIdentity(m: map<string, BPGEntry>, ks: seq<string>, t: map<string, BPGEntry>)
    requires DenseLoad(m, ks, t) && KeyedByDate(t)
    ensures Merge(ValuesOf(ks, t)) == t
    ensures DenseLoad(t, ks, t)
  {
    MergeValues(ks, t);
    RestrictAll(ks, t);
  }

  /** A load of a keyed-by-date dictionary is keyed by date too. */
  lemma DenseKeyedByDate(m: map<string, BPGEntry>, ks: seq<string>, t: map<string, BPGEntry>)
    requires DenseLoad(m, ks, t) && KeyedByDate(m)
    ensures KeyedByDate(t)
  {
    forall k | k in t
      ensures ValidDate(t[k].date) && KeyOf(t[k]) == k
    {
      if k !in m {
        assert Format(KeyDate(k)) == k;
      }
    }
  }

  // ---------------------------------------------------------------------------
  // The gap-filling loop of `bulk_load`, step by step, for canonical keys.
  /** The sorted keys of `tsd`, all canonical. */
  ghost predicate Plan(sk: seq<string>, tsd: map<string, BPGEntry>)
  {
    && |sk| > 0
    && (forall k :: k in sk <==> k in tsd)
    && (forall j :: 0 <= j < |sk| ==> Canonical(sk[j]))
    && StrictlyAscending(sk)
  }

  /** Sorted canonical keys are in date order. */
  lemma Ordered(sk: seq<string>, tsd: map<string, BPGEntry>, a: int, b: int)
    requires Plan(sk, tsd) && 0 <= a < b < |sk|
    ensures Before(KeyDate(sk[a]), KeyDate(sk[b]))
  {
    assert Less(sk[a], sk[b]);
    FormatOrder(KeyDate(sk[a]), KeyDate(sk[b]));
  }

  /** The keys `ks` run day by day from the first sorted key to `key`. */
  ghost predicate Run(sk: seq<string>, ks: seq<string>, key: string)
  {
    |sk| > 0 && |ks| > 0 && ks[0] == sk[0] && Chain(ks) && ks[|ks| - 1] == key
  }

  /**
   * The table `t` holds exactly the keys `ks`: the first `n` sorted keys with their
   * entries from `tsd`, every other key with an entry without readings.
   */
  ghost predicate Stored(sk: seq<string>, tsd: map<string, BPGEntry>, n: int, ks: seq<string>, t: map<string, BPGEntry>)
  {
    && 0 <= n <= |sk|
    && (forall k :: k in t <==> k in ks)
    && (forall j :: 0 <= j < n ==> sk[j] in tsd && sk[j] in t && t[sk[j]] == tsd[sk[j]])
    && (forall k :: k in t && k !in sk[..n] ==> Canonical(k) && t[k] == Blank(KeyDate(k)))
  }

  /** Before the `i`-th sorted key is stored: the series so far ends at that key. */
  ghost predicate Filled(sk: seq<string>, tsd: map<string, BPGEntry>, i: int, ks: seq<string>, t: map<string, BPGEntry>)
  {
    && 0 < i <= |sk|
    && Run(sk, ks, if i < |sk| then sk[i] else sk[|sk| - 1])
    && Stored(sk, tsd, i, ks, t)
  }

  /**
   * `key` lies from the `i`-th sorted key up to the next one, and `moreDays` is false
   * exactly when it has reached the next one.
   */
  ghost predicate Between(sk: seq<string>, i: int, key: string, moreDays: bool)
    requires 0 <= i < |sk| && forall j :: 0 <= j < |sk| ==> Canonical(sk[j])
  {
    && Canonical(key)
    && !Before(KeyDate(key), KeyDate(sk[i]))
    && (i + 1 < |sk| ==> !Before(KeyDate(sk[i + 1]), KeyDate(key)))
    && (i + 1 < |sk| || key == sk[i])
    && (moreDays ==> key == sk[i] || key !in sk)
    && (!moreDays ==> i + 1 < |sk| && key == sk[i + 1])
  }

  /** Inside the inner loop for the `i`-th sorted key, having reached `key`. */
  ghost predicate Filling(sk: seq<string>, tsd: map<string, BPGEntry>, i: int, key: string, moreDays: bool,
                          ks: seq<string>, t: map<string, BPGEntry>)
    requires Plan(sk, tsd)
  {
    && 0 <= i < |sk|
    && Run(sk, ks, key)
    && Between(sk, i, key, moreDays)
    && Stored(sk, tsd, i + 1, ks, t)
  }

  /** Storing the next sorted key's entry over the blank one already there. */
  lemma StoredNext(sk: seq<string>, tsd: map<string, BPGEntry>, i: int, ks: seq<string>, t: map<string, BPGEntry>)
    requires Stored(sk, tsd, i, ks, t) && i < |sk| && sk[i] in ks && sk[i] in tsd
    ensures Stored(sk, tsd, i + 1, ks, t[sk[i] := tsd[sk[i]]])
  {
    var t' := t[sk[i] := tsd[sk[i]]];
    assert sk[..i + 1] == sk[..i] + [sk[i]];
    forall k | k in t' && k !in sk[..i + 1]
      ensures Canonical(k) && t'[k] == Blank(KeyDate(k))
    {
      assert k !in sk[..i];
    }
  }

  /** Storing a blank entry for a day that is neither stored yet nor one of the first `n` sorted keys. */
  lemma StoredBlank(sk: seq<string>, tsd: map<string, BPGEntry>, n: int, ks: seq<string>, t: map<string, BPGEntry>, d: Date)
    requires Stored(sk, tsd, n, ks, t) && ValidDate(d) && Format(d) !in ks
    requires forall j :: 0 <= j < n ==> sk[j] != Format(d)
    ensures Stored(sk, tsd, n, ks + [Format(d)], t[Format(d) := Blank(d)])
  {
    var k' := Format(d);
    KeyDateOfFormat(d);
    forall k | k in t[k' := Blank(d)] && k !in sk[..n]
      ensures Canonical(k) && t[k' := Blank(d)][k] == Blank(KeyDate(k))
    {
    }
  }

  lemma StartFirst(sk: seq<string>, tsd: map<string, BPGEntry>)
    requires Plan(sk, tsd)
    ensures Filling(sk, tsd, 0, sk[0], true, [sk[0]], map[sk[0] := tsd[sk[0]]])
  {
    if 1 < |sk| {
      Ordered(sk, tsd, 0, 1);
    }
  }

  lemma StartNext(sk: seq<string>, tsd: map<string, BPGEntry>, i: int, ks: seq<string>, t: map<string, BPGEntry>)
    requires Plan(sk, tsd) && 0 < i < |sk| && Filled(sk, tsd, i, ks, t)
    ensures sk[i] in t
    ensures Filling(sk, tsd, i, sk[i], true, ks, t[sk[i] := tsd[sk[i]]])
  {
    assert sk[i] in ks;
    StoredNext(sk, tsd, i, ks, t);
    if i + 1 < |sk| {
      Ordered(sk, tsd, i, i + 1);
    }
  }

  /** Storing the `i`-th sorted key starts the inner loop, whether or not a blank entry holds its place. */
  lemma Start(sk: seq<string>, tsd: map<string, BPGEntry>, i: int, ks: seq<string>, t: map<string, BPGEntry>)
    requires StrictlyAscending(sk) && (forall k :: k in sk <==> k in tsd) && CanonicalKeys(tsd)
    requires 0 <= i < |sk|
    requires i == 0 ==> ks == [] && t == map[]
    requires i > 0 ==> Filled(sk, tsd, i, ks, t)
    ensures Plan(sk, tsd)
    ensures Filling(sk, tsd, i, sk[i], true, if sk[i] in t then ks else ks + [sk[i]], t[sk[i] := tsd[sk[i]]])
  {
    assert Plan(sk, tsd);
    if i == 0 {
      StartFirst(sk, tsd);
    } else {
      StartNext(sk, tsd, i, ks, t);
    }
  }

  /** The key reached is before the next sorted key, and its successor is not yet in the series. */
  lemma StepTarget(sk: seq<string>, tsd: map<string, BPGEntry>, i: int, key: string, ks: seq<string>, t: map<string, BPGEntry>)
    requires Plan(sk, tsd) && Filling(sk, tsd, i, key, true, ks, t) && key != sk[|sk| - 1]
    ensures i + 1 < |sk|
    ensures Before(KeyDate(key), KeyDate(sk[i + 1]))
    ensures KeyDate(key) != MaxDate && Format(NextDay(KeyDate(key))) !in ks
  {
    var day := KeyDate(key);
    if i + 1 < |sk| {
      Ordered(sk, tsd, i, i + 1);
    }
    assert day != KeyDate(sk[i + 1]);
    ChainAfter(ks, Format(NextDay(day)));
  }

  /** A day after the last key of a chain is not in the chain. */
  lemma ChainAfter(ks: seq<string>, k: string)
    requires Chain(ks) && |ks| > 0 && NextKey(ks[|ks| - 1], k)
    ensures k !in ks
  {
    var next := NextDay(KeyDate(ks[|ks| - 1]));
    KeyDateOfFormat(next);
    ChainAscending(ks);
    forall j | 0 <= j < |ks|
      ensures ks[j] != k
    {
    }
  }

  /** The day after one lying between two consecutive sorted keys is at most the later key. */
  lemma StepPlace(sk: seq<string>, tsd: map<string, BPGEntry>, i: int, day: Date)
    requires Plan(sk, tsd) && 0 <= i && i + 1 < |sk|
    requires ValidDate(day) && !Before(day, KeyDate(sk[i])) && Before(day, KeyDate(sk[i + 1]))
    ensures day != MaxDate
    ensures ValidDate(NextDay(day)) && !Before(KeyDate(sk[i + 1]), NextDay(day))
    ensures Format(NextDay(day)) in sk ==> Format(NextDay(day)) == sk[i + 1]
    ensures forall j :: 0 <= j <= i ==> sk[j] != Format(NextDay(day))
    ensures Between(sk, i, Format(NextDay(day)), Format(NextDay(day)) !in sk)
  {
    var next := NextDay(day);
    NextDayImmediate(day, KeyDate(sk[i + 1]));
    KeyDateOfFormat(next);
    if Format(next) in sk {
      var j :| 0 <= j < |sk| && sk[j] == Format(next);
      if j < i {
        Ordered(sk, tsd, j, i);
      } else if i + 1 < j {
        Ordered(sk, tsd, i + 1, j);
      }
    }
    forall j | 0 <= j <= i
      ensures sk[j] != Format(next)
    {
      if j < i {
        Ordered(sk, tsd, j, i);
      }
    }
  }

  /** One turn of the inner loop keeps the loop invariant. */
  lemma Step(sk: seq<string>, tsd: map<string, BPGEntry>, i: int, key: string, ks: seq<string>, t: map<string, BPGEntry>)
    requires Plan(sk, tsd) && Filling(sk, tsd, i, key, true, ks, t) && key != sk[|sk| - 1]
    ensures KeyDate(key) != MaxDate
    ensures var next := NextDay(KeyDate(key));
            && ValidDate(next)
            && Format(next) !in t
            && Filling(sk, tsd, i, Format(next), Format(next) !in sk, ks + [Format(next)], t[Format(next) := Blank(next)])
  {
    StepTarget(sk, tsd, i, key, ks, t);
    var day := KeyDate(key);
    StepPlace(sk, tsd, i, day);
    RunExtend(sk, ks, key);
    StoredBlank(sk, tsd, i + 1, ks, t, NextDay(day));
  }

  lemma RunExtend(sk: seq<string>, ks: seq<string>, key: string)
    requires Run(sk, ks, key) && KeyDate(key) != MaxDate
    ensures Run(sk, ks + [Format(NextDay(KeyDate(key)))], Format(NextDay(KeyDate(key))))
  {
    ChainExtend(ks);
  }

  /** Leaving the inner loop: the series now ends at the next sorted key, or at the last one. */
  lemma Finish(sk: seq<string>, tsd: map<string, BPGEntry>, i: int, key: string, moreDays: bool,
               ks: seq<string>, t: map<string, BPGEntry>)
    requires Plan(sk, tsd) && Filling(sk, tsd, i, key, moreDays, ks, t)
    requires key == sk[|sk| - 1] || !moreDays
    ensures Filled(sk, tsd, i + 1, ks, t)
  {
    if i + 1 < |sk| {
      Ordered(sk, tsd, i, |sk| - 1);
    }
  }

  lemma FilledIsDense(sk: seq<string>, tsd: map<string, BPGEntry>, ks: seq<string>, t: map<string, BPGEntry>)
    requires (forall k :: k in sk <==> k in tsd) && Filled(sk, tsd, |sk|, ks, t)
    ensures DenseLoad(tsd, ks, t)
  {
    assert sk[..|sk|] == sk;
    forall k | k in tsd
      ensures k in t && t[k] == tsd[k]
    {
      var j :| 0 <= j < |sk| && sk[j] == k;
    }
  }

  lemma MergeStep(items: seq<Item>, i: int)
    requires 0 <= i < |items| && AllEntries(items[..i]) && items[i].AnEntry?
    requires WellFormed(Entries(items))
    ensures AllEntries(items[..i + 1])
    ensures Merge(EntriesOf(items[..i + 1])) == Merge(EntriesOf(items[..i]))[KeyOf(items[i].entry) := items[i].entry]
  {
    assert items[..i + 1][..i] == items[..i];
    assert EntriesOf(items[..i + 1])[..i] == EntriesOf(items[..i]);
  }

  /** The first half of `bulk_load`: the dictionary `tsd`, or the error raised while building it. */
  method Collect(src: Source) returns (r: Result<map<string, BPGEntry>, Error>)
    requires WellFormed(src)
    ensures src.Unsupported? ==> r == Err(NotACollection)
    ensures src.Entries? && !AllEntries(src.items) ==> r == Err(NotAnEntryError)
    ensures Collectable(src) ==> r == Ok(Collected(src))
    ensures r.Ok? ==> forall k :: k in r.value ==> ValidDate(r.value[k].date)
  {
    match src {
      case Unsupported(_) =>
        return Err(NotACollection);
      case Mapping(dict) =>
        return Ok(dict);
      case Entries(items) =>
        var tsd := map[];
        for i := 0 to |items|
          invariant AllEntries(items[..i])
          invariant tsd == Merge(EntriesOf(items[..i]))
        {
          if items[i].NotAnEntry? {
            assert !AllEntries(items);
            return Err(NotAnEntryError);
          }
          var entry := items[i].entry;
          MergeStep(items, i);
          tsd := tsd[KeyOf(entry) := entry];
        }
        assert items[..|items|] == items;
        return Ok(tsd);
    }
  }

  // ---------------------------------------------------------------------------

  class Timeseries {
    /** The OrderedDict `_timeseries`: its keys in insertion order, and its contents. */
    var keys: seq<string>
    var table: map<string, BPGEntry>

    ghost predicate Valid()
      reads this
    {
      && (forall k :: k in table <==> k in keys)
      && Distinct(keys)
      && (forall k :: k in table ==> ValidDate(table[k].date))
    }

    /** An empty series. */
    constructor ()
      ensures Valid() && keys == [] && table == map[]
    {
      keys, table := [], map[];
    }

    /**
     * `Timeseries(timeseries)`: a series loaded from `src` when it is truthy, and an
     * empty one otherwise; an error raised by the load escapes the constructor.
     */
    static method Create(src: Source) returns (r: Result<Timeseries, Error>)
      requires WellFormed(src)
      ensures r.Ok? ==> fresh(r.value) && r.value.Valid()
      ensures !Truthy(src) ==> r.Ok? && r.value.keys == [] && r.value.table == map[]
      ensures Truthy(src) && src.Unsupported? ==> r == Err(NotACollection)
      ensures Truthy(src) && src.Entries? && !AllEntries(src.items) ==> r == Err(NotAnEntryError)
      ensures Truthy(src) && Collectable(src) && CanonicalKeys(Collected(src)) ==>
                r.Ok? && DenseLoad(Collected(src), r.value.keys, r.value.table)
      ensures Truthy(src) && Collectable(src) && r.Err? ==>
                (r.error.BadKey? || r.error == DateOverflow) && src.Mapping? && !CanonicalKeys(src.dict)
    {
      var ts := new Timeseries();
      if Truthy(src) {
        if Collectable(src) {
          CollectedNonEmpty(src);
        }
        var err := ts.BulkLoad(src);
        if err.Some? {
          return Err(err.value);
        }
      }
      return Ok(ts);
    }

    /** `self._timeseries[k] = v`: a new key goes last, an existing key keeps its place. */
    method Put(k: string, v: BPGEntry)
      requires Valid() && ValidDate(v.date)
      modifies this
      ensures Valid()
      ensures table == old(table)[k := v]
      ensures keys == if k in old(table) then old(keys) else old(keys) + [k]
    {
      if k !in table {
        keys := keys + [k];
      }
      table := table[k := v];
    }

    /**
     * The `while` loop of `bulk_load`: store an entry without readings for each day
     * after `key`, up to the next sorted key or `lastKey`.
     */
    method FillGap(key: string, lastKey: string, sortedKeys: seq<string>,
                   ghost tsd: map<string, BPGEntry>, ghost i: int, ghost canon: bool)
      returns (err: Option<Error>)
      requires Valid()
      requires canon ==> Plan(sortedKeys, tsd) && lastKey == sortedKeys[|sortedKeys| - 1]
                         && Filling(sortedKeys, tsd, i, key, true, keys, table)
      modifies this
      ensures Valid()
      ensures err.Some? ==> err.value.BadKey? || err.value == DateOverflow
      ensures canon ==> err == None && Filled(sortedKeys, tsd, i + 1, keys, table)
    {
      var day := key;
      var moreDays := true;
      while day != lastKey && moreDays
        invariant Valid()
        invariant canon ==> Filling(sortedKeys, tsd, i, day, moreDays, keys, table)
        decreases KeyRank(day)
      {
        if canon {
          Step(sortedKeys, tsd, i, day, keys, table);
          KeyDateParses(day);
        }
        var parsed := ParseDate(day);
        if parsed.None? {
          return Some(BadKey(day));
        }
        if parsed.value == MaxDate {
          return Some(DateOverflow);
        }
        var next := NextDay(parsed.value);
        RankDecreases(parsed.value);
        ParseFormat(next);
        var nextDay := Format(next);
        if nextDay in sortedKeys {
          moreDays := false;
        }
        day := nextDay;
        DateOnlyIsBlank(day);
        var blank := NewEntry(DateText(day), NoReading, NoReading, NoReading);
        Put(day, blank.value);
      }
      if canon {
        Finish(sortedKeys, tsd, i, day, moreDays, keys, table);
      }
      return None;
    }

    /**
     * One turn of the `for` loop of `bulk_load`: store the entry of the `i`-th sorted
     * key, then fill the days up to the next sorted key.
     */
    method LoadKey(sortedKeys: seq<string>, tsd: map<string, BPGEntry>, i: int) returns (err: Option<Error>)
      requires Valid() && forall k :: k in tsd ==> ValidDate(tsd[k].date)
      requires StrictlyAscending(sortedKeys) && (forall k :: k in sortedKeys <==> k in tsd)
      requires 0 <= i < |sortedKeys|
      requires i == 0 ==> keys == [] && table == map[]
      requires CanonicalKeys(tsd) && i > 0 ==> Filled(sortedKeys, tsd, i, keys, table)
      modifies this
      ensures Valid()
      ensures err.Some? ==> err.value.BadKey? || err.value == DateOverflow
      ensures CanonicalKeys(tsd) ==> err == None && Filled(sortedKeys, tsd, i + 1, keys, table)
    {
      var key := sortedKeys[i];
      ghost var canon := CanonicalKeys(tsd);
      if canon {
        Start(sortedKeys, tsd, i, keys, table);
      }
      Put(key, tsd[key]);
      err := FillGap(key, sortedKeys[|sortedKeys| - 1], sortedKeys, tsd, i, canon);
    }

    /**
     * The second half of `bulk_load`: empty the series, then store the keys of `tsd` in
     * sorted order, each followed by the days missing before the next one.
     */
    method Rebuild(tsd: map<string, BPGEntry>) returns (err: Option<Error>)
      requires Valid() && forall k :: k in tsd ==> ValidDate(tsd[k].date)
      modifies this
      ensures Valid()
      ensures tsd == map[] ==> err == Some(EmptySeries) && keys == [] && table == map[]
      ensures tsd != map[] && CanonicalKeys(tsd) ==> err == None && DenseLoad(tsd, keys, table)
      ensures err.Some? && err.value != EmptySeries ==> (err.value.BadKey? || err.value == DateOverflow) && !CanonicalKeys(tsd)
      ensures tsd != map[] && err.Some? ==> err.value.BadKey? || err.value == DateOverflow
    {
      keys, table := [], map[];
      var sortedKeys := Sorted(tsd.Keys);
      if |sortedKeys| == 0 {
        assert tsd.Keys == {};
        return Some(EmptySeries);
      }
      for i := 0 to |sortedKeys|
        invariant Valid()
        invariant i == 0 ==> keys == [] && table == map[]
        invariant CanonicalKeys(tsd) && 0 < i ==> Filled(sortedKeys, tsd, i, keys, table)
      {
        err := LoadKey(sortedKeys, tsd, i);
        if err.Some? {
          return err;
        }
      }
      if CanonicalKeys(tsd) {
        FilledIsDense(sortedKeys, tsd, keys, table);
      }
      return None;
    }

    /**
     * `bulk_load`: collect the entries into a dictionary, then rebuild the series from
     * its sorted keys, filling each gap between consecutive keys day by day.
     */
    method BulkLoad(src: Source) returns (err: Option<Error>)
      requires Valid() && WellFormed(src)
      modifies this
      ensures Valid()
      ensures src.Unsupported? ==> err == Some(NotACollection)
      ensures src.Entries? && !AllEntries(src.items) ==> err == Some(NotAnEntryError)
      ensures !Collectable(src) ==> keys == old(keys) && table == old(table)
      ensures Collectable(src) && Collected(src) == map[] ==> err == Some(EmptySeries) && keys == [] && table == map[]
      ensures Collectable(src) && Collected(src) != map[] && CanonicalKeys(Collected(src)) ==>
                err == None && DenseLoad(Collected(src), keys, table)
      ensures Collectable(src) && Collected(src) != map[] && KeyedByDate(Collected(src)) ==> KeyedByDate(table)
      ensures err.Some? && (err.value.BadKey? || err.value == DateOverflow) ==>
                src.Mapping? && !CanonicalKeys(src.dict)
      ensures Collectable(src) && Collected(src) != map[] && err.Some? ==> err.value.BadKey? || err.value == DateOverflow
    {
      var collected := Collect(src);
      if collected.Err? {
        return Some(collected.error);
      }
      var tsd := collected.value;
      if src.Entries? {
        MergeKeyedByDate(EntriesOf(src.items));
      }
      if KeyedByDate(tsd) {
        KeyedIsCanonical(tsd);
      }
      err := Rebuild(tsd);
      if err == None && tsd != map[] && KeyedByDate(tsd) {
        DenseKeyedByDate(tsd, keys, table);
      }
    }

    /**
     * `set`: store an entry under its date's key. An existing key keeps its place;
     * a new key makes the series re-sort itself. Missing days are not filled.
     */
    method Set(item: Item) returns (err: Option<Error>)
      requires Valid() && (item.AnEntry? ==> ValidDate(item.entry.date))
      modifies this
      ensures Valid()
      ensures item.NotAnEntry? ==> err == Some(NotAnEntryError) && keys == old(keys) && table == old(table)
      ensures item.AnEntry? ==> err == None && table == old(table)[KeyOf(item.entry) := item.entry]
      ensures item.AnEntry? ==> Get(KeyOf(item.entry)) == Ok(item.entry)
      ensures item.AnEntry? && KeyOf(item.entry) in old(table) ==> keys == old(keys)
      ensures item.AnEntry? && KeyOf(item.entry) !in old(table) ==> keys == Sorted(table.Keys)
      ensures StrictlyAscending(old(keys)) ==> StrictlyAscending(keys)
    {
      if item.NotAnEntry? {
        return Some(NotAnEntryError);
      }
      var entry := item.entry;
      var key := KeyOf(entry);
      if key in table {
        Put(key, entry);
        return None;
      }
      Put(key, entry);
      Resort();
      return None;
    }

    /** The re-sort in `set`: copy the entries into a new OrderedDict in sorted key order. */
    method Resort()
      requires Valid()
      modifies this
      ensures Valid() && table == old(table) && keys == Sorted(old(table).Keys)
    {
      var t := table;
      var sortedKeys := Sorted(t.Keys);
      var newKeys: seq<string> := [];
      var newTable: map<string, BPGEntry> := map[];
      for i := 0 to |sortedKeys|
        invariant newKeys == sortedKeys[..i]
        invariant newTable == Restrict(newKeys, t)
      {
        var k := sortedKeys[i];
        RestrictSnoc(newKeys, k, t);
        newKeys := newKeys + [k];
        newTable := newTable[k := t[k]];
      }
      assert newKeys == sortedKeys;
      RestrictAll(sortedKeys, t);
      AscendingDistinct(sortedKeys);
      keys, table := newKeys, newTable;
    }

    /** `get`: the entry stored under `k`; a missing key raises KeyError. */
    function Get(k: string): (r: Result<BPGEntry, Error>)
      reads this
      ensures r.Ok? <==> k in table
      ensures r.Ok? ==> r.value == table[k]
      ensures r.Err? ==> r.error == KeyNotFound(k)
    {
      if k in table then Ok(table[k]) else Err(KeyNotFound(k))
    }

    /** `keys`: the stored keys, each once, in the order the series holds them. */
    function Keys(): (r: seq<string>)
      reads this
      requires Valid()
      ensures forall k :: k in r <==> k in table
      ensures Distinct(r)
    {
      keys
    }

    /** `values`: the stored entries, in the order of `keys`. */
    function Values(): (r: seq<BPGEntry>)
      reads this
      requires Valid()
      ensures |r| == |Keys()| && forall i :: 0 <= i < |r| ==> Get(Keys()[i]) == Ok(r[i])
    {
      ValuesOf(keys, table)
    }
  }
}

=== FILE: wrappers.dfy ===
/** Optional values and results with an error, used for absent readings and raised errors. */
module Wrappers {

  datatype Option<+T> = None | Some(value: T)

  datatype Result<+T, +E> = Ok(value: T) | Err(error: E)
}
